=== FILE: README.md ===
# Race-line editor core, modelled in Dafny

`graphic_editor/application.py` is an interactive editor for a closed race line. The line is
defined by a polygon of control points, and a velocity profile is defined over its arc length.
The editor keeps the two consistent as the user edits them: it inserts, moves and deletes
control points, drags velocity points, re-derives the velocity profile after every edit, samples
the closed path through a periodic cubic spline, and exports curvature for the sampled loop.

This project models the trajectory-editing logic of that file as pure functions over
`seq<real>`, and proves properties about it. Each module follows one piece of the program:

| module | what it models |
|---|---|
| `Outcome` | `Option`, standing for a Python exception raised inside an operation |
| `RealSeq` | numpy array helpers: `np.maximum(0, ·)`, cumulative sums, `argmin`, the periodic-velocity convention |
| `Geometry` | points, `np.hypot` as a foreign non-negative length, the clamped projection onto a segment, `np.allclose` |
| `Nearest` | why the clamped projection is the nearest point of a segment |
| `ArcLength` | `_get_arc_lengths_for_path_ctrl_pts` and the loop total `s_max` of `update_spline` |
| `ControlPoints` | `insert_nearest` and the drag and double-click edits of `DraggableScatter` |
| `Velocity` | the velocity drag rule, `update_positions`, the profile variant selection, and `reset_velocity_profile` |
| `Reparam` | the velocity block of `update_spline`: `np.unique`, the wrapped interpolation domain, `interp1d`, the query rescaling |
| `Sampling` | `spline_sample_closed` |
| `Export` | padding, the zero-denominator guard and trimming in `save_csv` |
| `Editor` | `update_spline`, `handle_velocity_drag` and `reset_velocity_profile` as a whole, each ending with resampling |

Floating-point numbers are modelled as `real`. The SciPy periodic cubic splines and
`cs_vel_initial` are parameters of function type. `np.hypot` is a parameter known only to be
non-negative; the nearest-segment results that need more also assume it orders offsets like
the Euclidean length. The velocity spline's evaluation returns an `Option`, because
`spline_sample_closed` catches its exceptions in some branches and not in others.

## Model

| member | source | states |
|---|---|---|
| `Geometry.ClampUnit` | graphic_editor/application.py:310 | `np.clip(t, 0, 1)`: the result lies in [0, 1], equals `t` inside it, and equals the nearer bound outside it |
| `Geometry.ClampedProjection` | graphic_editor/application.py:305-311 | the projected point lies on the segment: it is the point at a parameter clamped into [0, 1] |
| `Geometry.SegmentDistance` | graphic_editor/application.py:305-312 | the measured distance is non-negative, is the length of the offset to some point of the segment, and is the distance to the start point on a zero-length segment |
| `Geometry.AllCloseReflexive` | graphic_editor/application.py:204 | every point is `np.allclose` to itself, so a one-point polygon is never extended |
| `Geometry.AllCloseNotSymmetric` | graphic_editor/application.py:204 | `np.allclose(a, b)` scales its tolerance by `b` only: (99998.99999999, 0) is close to (100000, 0) but not the other way round |
| `Nearest.ProjectionIsNearest` | graphic_editor/application.py:305-311 | the clamped projection is at least as close, in squared distance, to the new point as any point of the segment |
| `Nearest.SegmentDistanceIsMinimal` | graphic_editor/application.py:305-312 | the distance `insert_nearest` measures to a segment is no larger than the distance to any point of that segment |
| `ControlPoints.InsertIndex` | graphic_editor/application.py:300-315 | the insertion index is `i+1` for the first open edge `i` whose distance is minimal: no edge is closer, and every earlier edge is strictly farther; 0 for fewer than two points |
| `ControlPoints.InsertAt` | graphic_editor/application.py:316-317 | `list.insert(k, x)` puts `x` at index `k`, keeps the entries before it, and shifts the rest one place on |
| `ControlPoints.InsertNearest` | graphic_editor/application.py:298-318 | the result has one more point, the new point is at the insertion index, and the points before and after it keep their order |
| `ControlPoints.InsertNearestNeighbours` | graphic_editor/application.py:313-317 | the new point lands between the two end points of its nearest edge |
| `ControlPoints.Pop` | graphic_editor/application.py:384 | `list.pop(k)` removes exactly entry `k`, and raises when `k` is past the end |
| `ControlPoints.PopAfterInsert` | graphic_editor/application.py:316-317 | popping at the index where a point was inserted gives the original list back |
| `ControlPoints.MovePoint` | graphic_editor/application.py:370 | a drag replaces only the dragged point, and raises on an index past the end |
| `ControlPoints.MoveBack` | graphic_editor/application.py:365-372 | dragging a point back to where it was restores the list |
| `ControlPoints.DoubleClick` | graphic_editor/application.py:379-393 | a double-click on a point deletes it, a left double-click on empty space inserts there, and any other click changes nothing |
| `ControlPoints.DoubleClickUndo` | graphic_editor/application.py:382-387 | a double-click on the point just inserted by a double-click removes it again |
| `ArcLength.ClosedChords` | graphic_editor/application.py:630-633 | the chords of the closed polygon are the open chords followed by the closing chord |
| `ArcLength.ArcLengths` | graphic_editor/application.py:625-635 | the table has one entry per control point, starts at 0, grows by each open chord, is non-negative and non-decreasing; empty for no points, `[0.0]` for one |
| `ArcLength.LoopLengthCoversTable` | graphic_editor/application.py:777-789 | the loop total `s_max` is never shorter than the table's last entry `current_s[-1]` |
| `ArcLength.ArcLengthsOpenChords` | graphic_editor/application.py:634 | the table is the running sum of the open chords only: the closing edge never enters it |
| `ArcLength.LoopLength` | graphic_editor/application.py:777-789 | `s_max` is the table's last entry plus the closing chord for two or more points, 0 for one point, 0.01 for none |
| `ArcLength.LoopSumSplit` | graphic_editor/application.py:780-783 | the sum of all closed-loop chords splits into the table's last entry plus the closing chord |
| `RealSeq.ClampAll` | graphic_editor/application.py:861 | `np.maximum(0, v)` keeps every non-negative entry and replaces every negative one by 0 |
| `RealSeq.ArgMin` | graphic_editor/application.py:1038 | `np.argmin` returns an index whose value is no larger than any other, and every earlier value is strictly larger |
| `RealSeq.ArgMinUnique` | graphic_editor/application.py:1038 | the first-minimum rule determines the index: any index with both properties is the one `ArgMin` returns |
| `RealSeq.Sum` | graphic_editor/application.py:783 | a sum of non-negative terms is non-negative and no smaller than its last term |
| `RealSeq.CumSum` | graphic_editor/application.py:211 | `np.cumsum`: entry `i` is the sum of the first `i+1` terms |
| `RealSeq.CumSumFirst` | graphic_editor/application.py:634 | the first running sum is the first term |
| `RealSeq.CumSumStep` | graphic_editor/application.py:634 | consecutive running sums differ by exactly the next term |
| `RealSeq.CumSumMonotone` | graphic_editor/application.py:634 | running sums of non-negative chords are non-negative and non-decreasing |
| `Velocity.ClosePeriodic` | graphic_editor/application.py:442-445 | closing copies the first velocity onto the last and leaves every other entry alone |
| `Velocity.ClosePeriodicFixes` | graphic_editor/application.py:442-445 | closing leaves a profile unchanged exactly when it is already periodic, so closing twice is closing once |
| `Velocity.UpdatePositions` | graphic_editor/application.py:439-448 | the stored velocities are closed when the scatter is periodic and kept as given otherwise; an already periodic profile is stored unchanged |
| `Velocity.Drag` | graphic_editor/application.py:466-473 | the dragged velocity becomes `max(0, y)`; in a periodic scatter the opposite end follows the dragged end; no other entry changes; an index past the end raises |
| `Velocity.DragKeepsInvariants` | graphic_editor/application.py:466-473 | a drag keeps all velocities non-negative, and keeps a periodic profile periodic |
| `Velocity.DragPeriodic` | graphic_editor/application.py:469-473 | in a periodic scatter, a drag of any index keeps the two ends equal |
| `Velocity.SourceFor` | graphic_editor/application.py:652-661 | the profile is the periodic spline through the closed velocities for two or more points, the single velocity everywhere for one point, and zero everywhere for none |
| `Velocity.DragProfile` | graphic_editor/application.py:652-661 | after a drag and the refit, the dragged velocity is `max(0, y)`; a non-negative profile stays non-negative, a periodic one stays periodic, and the spline passes through exactly the velocities the scatter shows |
| `Velocity.NearestWaypoint` | graphic_editor/application.py:1036-1038 | the chosen waypoint is no farther than any other, and every earlier waypoint is strictly farther |
| `Velocity.ResetVelocities` | graphic_editor/application.py:1034-1043 | each control point takes the clamped original velocity of its nearest waypoint, and the last is set to the first; this raises exactly when there are control points but no waypoints |
| `Velocity.ResetProfile` | graphic_editor/application.py:1032-1051 | the reset profile sits at the control points' arc lengths, is non-negative and periodic, and its source is the variant that matches the number of points |
| `Reparam.FirstOccurrences` | graphic_editor/application.py:797-799 | `unique_idx` lists, in increasing order, indices that each start a run of equal arc lengths, beginning with 0 |
| `Reparam.FirstOccurrencesComplete` | graphic_editor/application.py:797-799 | every index that starts a run is listed, and the last listed index carries the table's last value |
| `Reparam.IsFirstMeansFirstOccurrence` | graphic_editor/application.py:797-799 | on a non-decreasing table, starting a run is the same as being the first occurrence of a value, so the run dedup is `np.unique`'s first-index rule |
| `Reparam.UniqueSorted` | graphic_editor/application.py:797-800 | `unique_s` is strictly increasing, contains every old arc length, and ends at the old last arc length |
| `Reparam.FirstOccurrencesOfIncreasing` | graphic_editor/application.py:797-800 | on a strictly increasing table, dedup keeps every index |
| `Reparam.WrapDomain` | graphic_editor/application.py:803-817 | the extended domain is `unique_s` with one knot before it, one last gap `current_s[-1] - unique_s[-2]` back (or 1 back for two knots), and one knot after it, one first gap ahead |
| `Reparam.WrapDomainIncreasing` | graphic_editor/application.py:802-817 | the extended domain is strictly increasing whenever `unique_s` is, so `interp1d` accepts it |
| `Reparam.WrapValues` | graphic_editor/application.py:818-820 | the extended values are `unique_v` with the first velocity repeated at both wrapped ends |
| `Reparam.SearchSorted` | graphic_editor/application.py:821-826 | the left insertion point: every knot before it is below the query, and the knot at it is not |
| `Reparam.Bracket` | graphic_editor/application.py:821-826 | the interpolation segment used for a query: the first one left of the domain, the last one right of it, and otherwise the segment whose end points bracket the query |
| `Reparam.InterpAtKnot` | graphic_editor/application.py:821-837 | the linear interpolant reads each knot's own value at that knot |
| `Reparam.InterpBetweenKnots` | graphic_editor/application.py:821-837 | inside the domain, the linear interpolant reads a value between the two bracketing knots' values |
| `Reparam.PyMod` | graphic_editor/application.py:849-851 | Python's `%` with a positive divisor lands in [0, divisor), differs from the dividend by a whole number of divisors, and leaves values already in [0, divisor) unchanged |
| `Reparam.PyModUnique` | graphic_editor/application.py:849-851 | those three facts determine Python's `%` uniquely: any value in [0, divisor) a whole number of divisors from the dividend is the remainder |
| `Reparam.SafeSpan` | graphic_editor/application.py:829-831 | the divisor is the given length when it exceeds 1e-6 and 1 otherwise, so it is always positive |
| `Reparam.InitialVelocitiesInPeriod` | graphic_editor/application.py:856-858 | the fallback reads the initial profile at a point of its first period that is a whole number of periods from the new arc length, and reads an arc length already inside that period as it is |
| `Reparam.RawVelocities` | graphic_editor/application.py:795-858 | the raw velocities: the old interpolant read at each query when the old table has two distinct values and ends above 1e-6; the first old velocity everywhere for one old point, an old table ending in (0, 1e-6], or a single distinct value; the `cs_vel_initial` fallback when the old table is empty or ends at or below 0 |
| `Reparam.RawOfIncreasing` | graphic_editor/application.py:797-837 | on a strictly increasing old table every knot is kept, and the raw velocities are the wrapped table's interpolant at each query |
| `Reparam.Finish` | graphic_editor/application.py:860-864 | the finished velocities are non-negative and periodic, and equal the clamped raw ones before the last |
| `Reparam.FinishAt` | graphic_editor/application.py:860-864 | each finished velocity is the clamped raw one, except the closing one, which is the clamped first |
| `Reparam.Queries` | graphic_editor/application.py:828-837 | corrected, each query is the new arc length times the old table's last entry divided by the new table's last entry, so the last new point reads the last old one |
| `Reparam.ReparametrizeAsWritten` | graphic_editor/application.py:791-864 | as written, the new velocities have one entry per new control point, and are non-negative and periodic; a single old point (`np.full_like` at 853-854) or an old table ending in (0, 1e-6] (838-844) spreads the first old velocity, clamped, everywhere |
| `Reparam.ReparametrizeAsWrittenValues` | graphic_editor/application.py:791-864 | as written, entry by entry: the clamped old interpolant at the position scaled by the loop total, or the clamped `cs_vel_initial` fallback, with the closing entry taking the first entry's value |
| `Reparam.Reparametrize` | graphic_editor/application.py:791-864 | corrected, the same shape facts hold, and a single old point or an old table ending in (0, 1e-6] spreads the first old velocity, clamped, everywhere |
| `Reparam.ReparametrizeValues` | graphic_editor/application.py:791-864 | corrected, entry by entry: the clamped old interpolant at the rescaled position when the old table has two distinct values and ends above 1e-6, and the clamped `cs_vel_initial` reading at the new arc length modulo the loop total when the old table is empty or ends at or below 0; the closing entry takes the first entry's value |
| `Reparam.InterpolateAtKnots` | graphic_editor/application.py:821-837 | reading the interpolant at a run of its own knots gives the values at those knots |
| `Reparam.QueriesOfSameTable` | graphic_editor/application.py:828-837 | corrected, an unchanged table is queried at its own arc lengths |
| `Reparam.FinishFixes` | graphic_editor/application.py:860-864 | clamping and closing change nothing in a velocity profile that is already non-negative and periodic |
| `Reparam.ReparametrizeIdentity` | graphic_editor/application.py:791-864 | corrected, re-deriving the velocities of an unchanged, strictly increasing table gives back the same non-negative periodic velocities |
| `Reparam.AsWrittenDrifts` | graphic_editor/application.py:828-837 | as written, on the unit square with velocities [1, 2, 3, 1], an update that moves nothing changes the velocities to [1, 1.75, 2.5, 1] |
| `Reparam.CorrectedKeepsSquare` | graphic_editor/application.py:828-837 | corrected, the same update keeps the unit square's velocities |
| `Reparam.QueriesByLoopTotal` | graphic_editor/application.py:829-836 | the loop-total repair of the query scale: an unchanged loop total, above 1e-6, queries an unchanged table at its own arc lengths |
| `Reparam.ReparametrizeByLoopTotal` | graphic_editor/application.py:791-864 | the velocity block with the loop-total repair keeps the same shape: one entry per new point, non-negative and periodic; its constant branches (one old point, an old table ending in (0, 1e-6]) give the first old velocity, clamped, everywhere |
| `Reparam.RepairsDisagree` | graphic_editor/application.py:829-836 | the two repairs of the query scale give different velocities after the same edit: the unit square with velocities [1, 2, 3, 1] stretched into the rectangle (0,0), (2,0), (2,1), (0,1) gives [1, 2.2, 2.8, 1] end to end and [1, 7/3, 3, 1] by loop totals |
| `Reparam.UpdateVelocity` | graphic_editor/application.py:775-873 | after an edit, the velocity scatter sits at the new arc lengths with non-negative periodic velocities, and the installed profile is the spline through them, their single value, or zero |
| `Reparam.UpdateUnchangedKeepsVelocities` | graphic_editor/application.py:791-873 | corrected, an update that moves no control point keeps a non-negative periodic velocity profile exactly as it was |
| `Sampling.LoopPoints` | graphic_editor/application.py:203-205 | the closed control polygon keeps every control point in order, and adds a copy of the first only when the first and last are not already `np.allclose` |
| `Sampling.ClosedFill` | graphic_editor/application.py:185-199 | a constant array closed by repeating its first entry; empty when there are no samples |
| `Sampling.Flat` | graphic_editor/application.py:184-200 | a degenerate path: every sampled position is the first control point, every velocity is the clamped start velocity, every arc length is 0 |
| `Sampling.StartVelocity` | graphic_editor/application.py:187-190 | `cs_vel(0.0)` under `try`: a constant profile gives its value, the zero profile 0, a spline its value at 0, and 0 when the spline raises |
| `Sampling.EvalAll` | graphic_editor/application.py:237-238 | evaluating the profile at every position succeeds exactly when each single evaluation does, and gives their values |
| `Sampling.Linspace` | graphic_editor/application.py:257 | `num` strictly increasing parameters in [0, 1) starting at 0: one period without its end point |
| `Sampling.PathParams` | graphic_editor/application.py:208-211 | `t_path` over the closed control polygon is its arc-length table |
| `Sampling.PathTotal` | graphic_editor/application.py:203-212 | `total_path_length` is non-negative, 0 for one point, the open table's last entry when the polygon already closes, and the loop total `s_max` when a closing point is appended |
| `Sampling.LoopPointsTotal` | graphic_editor/application.py:203-212 | when the first point has to be appended, the closed polygon's table ends at the sum of all its chords, which is the loop total `s_max` |
| `Sampling.NormalizeUnit` | graphic_editor/application.py:231-233 | normalising a table by its own last entry gives a non-decreasing table from 0 to 1 |
| `Sampling.ControlParams` | graphic_editor/application.py:231-233 | `t_norm_path` starts at 0, ends at 1, is non-decreasing, and stays within [0, 1] |
| `Sampling.ControlVelocities` | graphic_editor/application.py:237-246 | the control velocities raise exactly when the profile raises at one control parameter; otherwise they are the clamped profile values, with the last set equal to the first |
| `Sampling.SampleRows` | graphic_editor/application.py:237-262 | the general branch raises exactly when the control velocities do; otherwise it gives `num` rows, row `i` being the joint spline through the control knots read at `i/num` |
| `Sampling.ClosedVelocities` | graphic_editor/application.py:265-270 | the sampled velocities are clamped at zero and closed by repeating the first |
| `Sampling.SampleLengths` | graphic_editor/application.py:272-274 | `S` is the arc-length table of the sampled points: it starts at 0 and is non-decreasing |
| `Sampling.SampleArcLengths` | graphic_editor/application.py:272-274 | the running sum of the sampled chords is the arc-length table of the sampled points |
| `Sampling.CloseSamples` | graphic_editor/application.py:265-274 | positions and clamped velocities are closed by repeating the first sample, and `S` is their arc-length table |
| `Sampling.Shape` | graphic_editor/application.py:260-274 | the output columns are the rows' positions and clamped velocities, closed by repeating the first row, and `S` is the arc-length table of the closed samples |
| `Sampling.ConstantNeverRaises` | graphic_editor/application.py:237-238 | the general branch can raise only when the profile is a spline; a constant or zero profile never raises |
| `Sampling.SampleClosed` | graphic_editor/application.py:179-276 | no control points give four empty arrays; one point or a closed length below 1e-9 gives the flat path at the first point; an exception is possible only in the general branch with a spline profile; velocities are never negative |
| `Sampling.SampleGeneral` | graphic_editor/application.py:203-276 | the general branch raises only for a spline profile, and its velocities are never negative |
| `Sampling.SampleClosedFails` | graphic_editor/application.py:237-238 | the general branch raises exactly when the profile raises at some control parameter scaled by `s_max` |
| `Sampling.SampleClosedLoop` | graphic_editor/application.py:179-276 | with at least one sample and one control point, every output is a closed loop: four arrays of `num+1` entries, last equal to first in `xs`, `ys` and `vs`, and `S` starting at 0 and non-decreasing |
| `Sampling.SampleClosedArcLengths` | graphic_editor/application.py:272-274 | in the general branch, `S` is exactly the arc-length table of the `num+1` sampled points |
| `Export.LastTwo` | graphic_editor/application.py:984 | `a[-2:]` is the last two entries, or all of them when there are fewer |
| `Export.FirstTwo` | graphic_editor/application.py:984 | `a[:2]` is the first two entries, or all of them when there are fewer |
| `Export.WrapPad` | graphic_editor/application.py:984-985 | the padded array grows by twice the length of `a[:2]` |
| `Export.WrapPadShort` | graphic_editor/application.py:984-993 | with fewer than two samples, the padded array has three times as many entries and trimming leaves nothing |
| `Export.Trim` | graphic_editor/application.py:993 | `a[2:-2]` drops two entries at each end, and is empty for four entries or fewer |
| `Export.WrapPadNeighbours` | graphic_editor/application.py:984-993 | on a loop of two or more samples, padding puts the last two samples before the first and the first two after the last, and trimming gives the loop back |
| `Export.GuardPositive` | graphic_editor/application.py:990-991 | after the guard, every denominator built from a non-negative power is strictly positive |
| `Export.Quotients` | graphic_editor/application.py:992 | each quotient times its denominator gives back its numerator |
| `Export.Curvature` | graphic_editor/application.py:990-993 | every curvature division is by a strictly positive denominator, and curvature entry `j` is the quotient at padded sample `j+2` |
| `Export.CurvatureMatchesSamples` | graphic_editor/application.py:984-993 | for a loop of two or more samples, the curvature column has exactly as many entries as the other exported columns |
| `Editor.SampleCount` | graphic_editor/application.py:880 | the sample count is at least 200 and at least ten per control point, and is one of the two |
| `Editor.UpdateSpline` | graphic_editor/application.py:761-883 | corrected, after any edit, the velocities are non-negative and periodic at the new arc lengths; no points give empty output; one point gives the flat path at its velocity; otherwise the output is a closed loop, unless the profile raises with two or more points |
| `Editor.DragSpline` | graphic_editor/application.py:637-668 | after a velocity drag, the dragged velocity is `max(0, y)`; one control point with one velocity gives the flat path at that velocity; otherwise the resampled output is a closed loop, unless the profile raises with two or more points |
| `Editor.ResetSpline` | graphic_editor/application.py:1020-1059 | the reset raises exactly when there are control points but no waypoints; otherwise the velocities are non-negative and periodic; one point gives the flat path at its velocity; otherwise the output is a closed loop, unless the profile raises with two or more points |

## Left out

- The Qt and pyqtgraph layer is not modelled. That covers colour-mapped segment painting, hit-testing, window layout and slider syncing. It has no behaviour beyond the handlers above.
- The SciPy `CubicSpline` fits and their evaluation are parameters (`VelocityFit`, `PathFit`), and so is `cs_vel_initial`. They are foreign numerics.
- `ValueError`s raised while constructing a spline are left out. The fits are total functions in the model.
- In `save_csv`, `np.gradient`, `arctan2` and `** 1.5` are left out. The gradient arrays and the power enter `Export.Curvature` as parameters, and only the power's sign is known.
- The `psi` and `ax` columns, the CSV header, the file writing and the `_modified.csv` rename are I/O and are not modelled.
- `save_csv` on an empty control polygon is not modelled. `np.gradient` raises on empty arrays, and the model does not represent that crash.
- Float rounding is not modelled: arithmetic is exact over the reals. The tolerances 1e-9, 1e-6, `np.allclose`'s defaults and 2^-52 are kept as exact constants.
- `Geometry.Chord` uses a parameter `h` for `np.hypot` that is known only to be non-negative. The nearest-segment lemmas also require `OrdersLikeLength(h)`: a smaller squared offset never measures longer.
- The waypoint loader and the construction in `MainWindow.__init__` are not modelled. That covers the initial sampling and the unclamped initial velocities.
- `Reparam.ReparametrizeAsWritten`: its own contract states shape, sign, periodicity and the two constant branches; the interpolated and `cs_vel_initial` entries are stated by `Reparam.ReparametrizeAsWrittenValues`. Its drift is exhibited on one concrete loop by `Reparam.AsWrittenDrifts`, not characterised in general.
- `Reparam.Reparametrize`: its own contract states the shape and the constant cases only; the interpolated and `cs_vel_initial` values are stated entry by entry by `Reparam.ReparametrizeValues`.
- `Reparam.UpdateVelocity`: uses the corrected query scale of `Reparam.Queries` (see Findings); the code as written is `Reparam.ReparametrizeAsWritten`. It also requires the previous arc-length table to be non-decreasing. The editor only ever stores arc-length tables there, and `np.unique` on an unsorted table is not modelled.
- `Reparam.Queries`: uses the end-to-end repair `new_s / new_s[-1] * old_s[-1]`. The loop-total repair `new_s / s_max * old_total` (`Reparam.ReparametrizeByLoopTotal`) is equally consistent with an unchanged polygon. Neither is implied by the code. They disagree after an edit: stretching the unit square with velocities [1, 2, 3, 1] into the rectangle (0,0), (2,0), (2,1), (0,1) gives [1, 2.2, 2.8, 1] with one and [1, 7/3, 3, 1] with the other (`Reparam.RepairsDisagree`). The handlers use the end-to-end repair only; the loop total before an edit is not threaded through `Reparam.UpdateVelocity` and `Editor.UpdateSpline`.
- `Editor.UpdateSpline`: composes `Reparam.UpdateVelocity`, so it uses the corrected query scale (see Findings), not the code as written. What the code as written does to the velocities is `Reparam.ReparametrizeAsWritten`; no whole-handler composition is built on it.
- `Velocity.Drag`: does not model integer velocity arrays. When the CSV's `vx_mps` column is read as integers, the reset velocities form an integer array, and a drag stores `max(0, y)` truncated toward zero (graphic_editor/application.py:499, 1039-1040, 441, 467). The model keeps every velocity real.
- `Sampling.SampleClosed`: relates the general branch's output to the fitted joint spline only through `Sampling.SampleRows` and `Sampling.Shape`. Its own contract states the branch structure and the loop shape.
- `Sampling.ControlVelocities`: the velocity spline is evaluated once per control parameter. The model does not distinguish this from numpy evaluating the whole array in one call, which raises if any single evaluation would.

### Behaviour of the code that the model keeps

- `insert_nearest` never considers the closing edge. It scans only the open edges `i -> i+1`, so the edge from the last point back to the first is never a candidate (graphic_editor/application.py:302).
- The export guard replaces a zero denominator by `np.finfo(float).eps`, which is 2^-52 (graphic_editor/application.py:991).
- The velocity block scales the new arc lengths onto `old_s[-1]`, the old table's last entry. That entry excludes the closing edge (graphic_editor/application.py:832-836).

## Findings

| source | as written | input that shows it | evidently intended | confidence | as-written member | corrected member |
|---|---|---|---|---|---|---|
| graphic_editor/application.py:829-836 | `s_to_sample_at = new_s / s_max * old_s[-1]`. `s_max` includes the closing edge but `old_s[-1]` does not, so an update that moves no control point reads the old profile at compressed positions. | unit square (0,0), (1,0), (1,1), (0,1) with velocities [1, 2, 3, 1]: the table is [0, 1, 2, 3] and `s_max` is 4; re-running `update_spline` unchanged turns the velocities into [1, 1.75, 2.5, 1] | one of two repairs that keep an unchanged polygon's velocities. The model uses `new_s / new_s[-1] * old_s[-1]`, which maps the new table onto the old one end to end. The other is `new_s / s_max * old_total`, which keeps `s_max` and multiplies by the loop total before the edit (`Reparam.ReparametrizeByLoopTotal`). The two differ after an edit (`Reparam.RepairsDisagree`) | not executed | `Reparam.AsWrittenDrifts` | `Reparam.ReparametrizeIdentity` |

=== FILE: arclength.dfy ===
/** Arc-length bookkeeping of the control polygon (graphic_editor/application.py,
    `MainWindow._get_arc_lengths_for_path_ctrl_pts` and the loop total `s_max` of
    `update_spline`). The table stops at the last control point; the loop total also
    counts the closing edge back to the first. */
module ArcLength {
  import opened RealSeq
  import opened Geometry

  /** `np.hypot(np.diff(x), np.diff(y))`: the chord lengths between consecutive points. */
  function Chords(h: Hypot, pts: seq<Point>): (d: seq<real>)
    ensures |pts| <= 1 ==> d == []
    ensures |pts| > 1 ==> |d| == |pts| - 1
    ensures forall i :: 0 <= i < |d| ==> d[i] == Chord(h, pts[i], pts[i + 1])
    ensures NonNegative(d)
  {
    if |pts| <= 1 then []
    else seq(|pts| - 1, i requires 0 <= i < |pts| - 1 => Chord(h, pts[i], pts[i + 1]))
  }

  /** The chords of the closed polygon are the open chords followed by the closing edge. */
  lemma ClosedChords(h: Hypot, pts: seq<Point>)
    requires |pts| > 1
    ensures Chords(h, Closed(pts)) == Chords(h, pts) + [Chord(h, pts[|pts| - 1], pts[0])]
  {
    var c := Closed(pts);
    assert c[|pts|] == pts[0];
    assert forall i | 0 <= i < |pts| :: c[i] == pts[i];
  }

  /** `_get_arc_lengths_for_path_ctrl_pts`: `[]` for no points, `[0.0]` for one, and
      otherwise `0` followed by the cumulative closed-loop chords without the last one. */
  function ArcLengths(h: Hypot, pts: seq<Point>): (s: seq<real>)
    ensures |s| == |pts|
    ensures |pts| > 0 ==> s[0] == 0.0
    ensures forall i :: 0 <= i < |pts| - 1 ==> s[i + 1] == s[i] + Chord(h, pts[i], pts[i + 1])
    ensures NonNegative(s) && NonDecreasing(s)
  {
    if |pts| == 0 then []
    else if |pts| == 1 then [0.0]
    else
      var d := Chords(h, Closed(pts))[..|pts| - 1];
      ClosedChords(h, pts);
      assert d == Chords(h, pts);
      RunningTotals(d);
      [0.0] + CumSum(d)
  }

  /** `0` followed by the running totals of non-negative steps starts at 0, grows by exactly
      one step per entry, and never decreases. */
  lemma RunningTotals(d: seq<real>)
    requires NonNegative(d)
    ensures var s := [0.0] + CumSum(d);
      && (forall i :: 0 <= i < |d| ==> s[i + 1] == s[i] + d[i])
      && NonNegative(s) && NonDecreasing(s)
  {
    RunningTotalsStep(d);
    RunningTotalsOrder(d);
  }

  lemma RunningTotalsStep(d: seq<real>)
    ensures var s := [0.0] + CumSum(d);
      forall i :: 0 <= i < |d| ==> s[i + 1] == s[i] + d[i]
  {
    var s := [0.0] + CumSum(d);
    forall i | 0 <= i < |d| ensures s[i + 1] == s[i] + d[i] {
      if i == 0 {
        CumSumFirst(d);
      } else {
        CumSumStep(d, i - 1);
      }
    }
  }

  lemma RunningTotalsOrder(d: seq<real>)
    requires NonNegative(d)
    ensures NonNegative([0.0] + CumSum(d)) && NonDecreasing([0.0] + CumSum(d))
  {
    var c := CumSum(d);
    var s := [0.0] + c;
    CumSumMonotone(d);
    assert forall i | 1 <= i < |s| :: s[i] == c[i - 1];
  }

  /** The loop total `s_max` that `update_spline` derives from the control points: the sum of
      every closed-loop chord for two or more points, `0.0` for one point, `0.01` for none. */
  function LoopLength(h: Hypot, pts: seq<Point>): (total: real)
    ensures |pts| == 0 ==> total == 0.01
    ensures |pts| == 1 ==> total == 0.0
    ensures |pts| > 1 ==> total == ArcLengths(h, pts)[|pts| - 1] + Chord(h, pts[|pts| - 1], pts[0])
  {
    if |pts| == 0 then 0.01
    else if |pts| == 1 then 0.0
    else
      var d := Chords(h, Closed(pts));
      ClosedChords(h, pts);
      LoopSumSplit(h, pts);
      Sum(d)
  }

  lemma LoopSumSplit(h: Hypot, pts: seq<Point>)
    requires |pts| > 1
    ensures Sum(Chords(h, Closed(pts)))
         == ArcLengths(h, pts)[|pts| - 1] + Chord(h, pts[|pts| - 1], pts[0])
  {
    var d := Chords(h, Closed(pts));
    var open := d[..|pts| - 1];
    ClosedChords(h, pts);
    assert d[..|d| - 1] == open;
    assert CumSum(open)[|pts| - 2] == Sum(open[..|pts| - 1]);
    assert open[..|pts| - 1] == open;
  }

  /** The loop total is never shorter than the arc-length table's last entry. */
  lemma LoopLengthCoversTable(h: Hypot, pts: seq<Point>)
    requires |pts| > 0
    ensures ArcLengths(h, pts)[|pts| - 1] <= LoopLength(h, pts)
  {
  }

  /** The table is the cumulative sum of the open chords: the closing edge never enters it. */
  lemma ArcLengthsOpenChords(h: Hypot, pts: seq<Point>)
    requires |pts| > 0
    ensures ArcLengths(h, pts) == [0.0] + CumSum(Chords(h, pts))
  {
    if |pts| > 1 {
      ClosedChords(h, pts);
      assert Chords(h, Closed(pts))[..|pts| - 1] == Chords(h, pts);
    }
  }
}

=== FILE: controlpoints.dfy ===
/** Editing the control polygon (graphic_editor/application.py): `insert_nearest`, and the
    list updates of `DraggableScatter` — dragging a point, and a double-click that removes
    the point under the cursor or inserts a new one on the nearest segment. */
module ControlPoints {
  import opened Outcome
  import opened RealSeq
  import opened Geometry

  /** The distance from `p` to each open edge `pts[i] -> pts[i + 1]`, in the order the loop
      of `insert_nearest` visits them. The closing edge from the last point back to the
      first is not among them. */
  function EdgeDistances(h: Hypot, pts: seq<Point>, p: Point): (d: seq<real>)
    ensures |pts| <= 1 ==> d == []
    ensures |pts| > 1 ==> |d| == |pts| - 1
    ensures forall i :: 0 <= i < |d| ==> d[i] == SegmentDistance(h, p, pts[i], pts[i + 1])
  {
    if |pts| <= 1 then []
    else seq(|pts| - 1, i requires 0 <= i < |pts| - 1 => SegmentDistance(h, p, pts[i], pts[i + 1]))
  }

  /** `insert_idx` of `insert_nearest`: one past the start of the first open edge whose
      distance to `p` is strictly smallest, or 0 when there is no edge. */
  function InsertIndex(h: Hypot, pts: seq<Point>, p: Point): (k: nat)
    ensures |pts| <= 1 ==> k == 0
    ensures |pts| > 1 ==> 1 <= k <= |pts| - 1
    ensures |pts| > 1 ==> forall j :: 0 <= j < |pts| - 1 ==>
      SegmentDistance(h, p, pts[k - 1], pts[k]) <= SegmentDistance(h, p, pts[j], pts[j + 1])
    ensures |pts| > 1 ==> forall j :: 0 <= j < k - 1 ==>
      SegmentDistance(h, p, pts[k - 1], pts[k]) < SegmentDistance(h, p, pts[j], pts[j + 1])
  {
    if |pts| <= 1 then 0 else ArgMin(EdgeDistances(h, pts, p)) + 1
  }

  /** Python's `list.insert(k, x)` for an index within the list. */
  function InsertAt<T>(a: seq<T>, k: nat, x: T): (r: seq<T>)
    requires k <= |a|
    ensures |r| == |a| + 1 && r[k] == x
    ensures r[..k] == a[..k] && r[k + 1..] == a[k..]
  {
    a[..k] + [x] + a[k..]
  }

  /** Python's `list.pop(k)`: `None` (an `IndexError`) when `k` is past the end. */
  function Pop<T>(a: seq<T>, k: nat): (r: Option<seq<T>>)
    ensures r.Some? <==> k < |a|
    ensures r.Some? ==> |r.value| == |a| - 1 && r.value[..k] == a[..k] && r.value[k..] == a[k + 1..]
  {
    if k < |a| then Some(a[..k] + a[k + 1..]) else None
  }

  /** `insert_nearest(control_pts, new_pt)`: the list with `p` placed after the start of its
      nearest open edge. */
  function InsertNearest(h: Hypot, pts: seq<Point>, p: Point): (r: seq<Point>)
    ensures |r| == |pts| + 1
    ensures r[InsertIndex(h, pts, p)] == p
    ensures r[..InsertIndex(h, pts, p)] == pts[..InsertIndex(h, pts, p)]
    ensures r[InsertIndex(h, pts, p) + 1..] == pts[InsertIndex(h, pts, p)..]
  {
    InsertAt(pts, InsertIndex(h, pts, p), p)
  }

  /** Removing what was just inserted gives the original list back. */
  lemma PopAfterInsert<T>(a: seq<T>, k: nat, x: T)
    requires k <= |a|
    ensures Pop(InsertAt(a, k, x), k) == Some(a)
  {
    var r := InsertAt(a, k, x);
    assert r[..k] + r[k + 1..] == a[..k] + a[k..];
    assert a[..k] + a[k..] == a;
  }

  /** The inserted point lies on the edge that `insert_nearest` chose: between its old
      neighbours `pts[k - 1]` and `pts[k]`, which stay adjacent to it. */
  lemma InsertNearestNeighbours(h: Hypot, pts: seq<Point>, p: Point)
    requires |pts| > 1
    ensures var k := InsertIndex(h, pts, p);
      var r := InsertNearest(h, pts, p);
      r[k - 1] == pts[k - 1] && r[k] == p && r[k + 1] == pts[k]
  {
    var k := InsertIndex(h, pts, p);
    var r := InsertNearest(h, pts, p);
    assert r[k - 1] == r[..k][k - 1];
    assert r[k + 1] == r[k + 1..][0];
  }

  /** `positions[dragIndex] = (x, y)` in `DraggableScatter.mouseMoveEvent`: `None` (an
      `IndexError`) when the index is past the end. */
  function MovePoint(pts: seq<Point>, k: nat, p: Point): (r: Option<seq<Point>>)
    ensures r.Some? <==> k < |pts|
    ensures r.Some? ==> |r.value| == |pts| && r.value[k] == p
    ensures r.Some? ==> forall i :: 0 <= i < |pts| && i != k ==> r.value[i] == pts[i]
  {
    if k < |pts| then Some(pts[k := p]) else None
  }

  /** Dragging a point back where it came from undoes the drag. */
  lemma MoveBack(pts: seq<Point>, k: nat, p: Point)
    requires k < |pts|
    ensures MovePoint(MovePoint(pts, k, p).value, k, pts[k]) == Some(pts)
  {
    assert pts[k := p][k := pts[k]] == pts;
  }

  /** What a double-click finds: the index of the point under the cursor, or none. */
  datatype Click = OnPoint(index: nat) | OnEmpty(left: bool)

  /** `DraggableScatter.mouseDoubleClickEvent`: a click on a point pops it; a left click on
      empty space inserts the clicked position at its nearest edge; any other click is
      ignored and the list stays as it was. `None` is the `IndexError` of `pop`. */
  function DoubleClick(h: Hypot, pts: seq<Point>, click: Click, p: Point): (r: Option<seq<Point>>)
    ensures click.OnPoint? ==> r == Pop(pts, click.index)
    ensures click == OnEmpty(true) ==> r == Some(InsertNearest(h, pts, p))
    ensures click == OnEmpty(false) ==> r == Some(pts)
    ensures click.OnPoint? && click.index < |pts| ==> r.Some? && |r.value| == |pts| - 1
    ensures click.OnEmpty? ==> r.Some?
  {
    match click
    case OnPoint(i) => Pop(pts, i)
    case OnEmpty(left) => if left then Some(InsertNearest(h, pts, p)) else Some(pts)
  }

  /** Double-clicking empty space and then double-clicking the point that appeared there
      restores the control polygon. */
  lemma DoubleClickUndo(h: Hypot, pts: seq<Point>, p: Point, q: Point)
    ensures var inserted := DoubleClick(h, pts, OnEmpty(true), p);
      inserted.Some?
      && DoubleClick(h, inserted.value, OnPoint(InsertIndex(h, pts, p)), q) == Some(pts)
  {
    PopAfterInsert(pts, InsertIndex(h, pts, p), p);
  }
}

=== FILE: editor.dfy ===
/** The three `MainWindow` handlers that end by resampling the path
    (graphic_editor/application.py): `update_spline`, run after every edit of the control
    polygon, `handle_velocity_drag`, run after every drag of a velocity point, and
    `reset_velocity_profile`. Each installs a velocity profile and then samples the closed path
    with `max(200, 10 * n)` samples for `n` control points. */
module Editor {
  import opened Outcome
  import opened RealSeq
  import opened Geometry
  import opened ArcLength
  import opened Velocity
  import opened Reparam
  import opened Sampling

  /** `max(200, len(self.ctrl_pts) * 10)`. */
  function SampleCount(n: nat): (k: nat)
    ensures k >= 200 && k >= 10 * n
    ensures k == 200 || k == 10 * n
  {
    if 10 * n > 200 then 10 * n else 200
  }

  /** What a handler leaves behind: the velocity scatter with its installed profile, and the
      sampled path (`None` when sampling raised). */
  datatype View = View(profile: Profile, samples: Option<Samples>)

  /** `update_spline(ctrl_pts)`: the loop total and the carried-over velocity profile, then the
      path sampled with that profile and that total. */
  function UpdateSpline(h: Hypot, fit: VelocityFit, pathFit: PathFit, initial: real -> real,
                        ctrl: seq<Point>, prev: Profile): (r: View)
    requires |prev.s| == |prev.v| && NonDecreasing(prev.s)
    ensures r.profile.s == ArcLengths(h, ctrl) && |r.profile.v| == |ctrl|
    ensures NonNegative(r.profile.v) && Periodic(r.profile.v)
    ensures |ctrl| == 0 ==> r == View(Profile([], [], Zero), Some(Samples([], [], [], [])))
    ensures |ctrl| == 1 ==>
      r.samples == Some(Flat(SampleCount(1), ctrl[0], r.profile.v[0]))
    ensures r.samples.None? ==> |ctrl| > 1
    ensures |ctrl| > 0 && r.samples.Some? ==> IsLoop(r.samples.value, SampleCount(|ctrl|))
  {
    var profile := UpdateVelocity(h, fit, initial, ctrl, prev);
    var samples := SampleClosed(h, pathFit, ctrl, SampleCount(|ctrl|), profile.source, LoopLength(h, ctrl));
    if |ctrl| > 0 && samples.Some? then
      SampleClosedLoop(h, pathFit, ctrl, SampleCount(|ctrl|), profile.source, LoopLength(h, ctrl));
      View(profile, samples)
    else View(profile, samples)
  }

  /** `reset_velocity_profile()`: velocities from the nearest original waypoints, then the path
      sampled with the new profile and the current loop total `sMax`. `None` when there are
      control points but no waypoint to look them up in. */
  function ResetSpline(h: Hypot, fit: VelocityFit, pathFit: PathFit, waypoints: seq<Point>,
                       vOrig: seq<real>, ctrl: seq<Point>, sMax: real): (r: Option<View>)
    requires |vOrig| == |waypoints|
    ensures r.None? <==> |waypoints| == 0 && |ctrl| > 0
    ensures r.Some? ==> r.value.profile.s == ArcLengths(h, ctrl) && |r.value.profile.v| == |ctrl|
    ensures r.Some? ==> NonNegative(r.value.profile.v) && Periodic(r.value.profile.v)
    ensures r.Some? && |ctrl| == 1 ==>
      r.value.samples == Some(Flat(SampleCount(1), ctrl[0], r.value.profile.v[0]))
    ensures r.Some? && r.value.samples.None? ==> |ctrl| > 1
    ensures r.Some? && |ctrl| > 0 && r.value.samples.Some? ==>
      IsLoop(r.value.samples.value, SampleCount(|ctrl|))
  {
    match ResetProfile(h, fit, waypoints, vOrig, ctrl)
    case None => None
    case Some(profile) =>
      var samples := SampleClosed(h, pathFit, ctrl, SampleCount(|ctrl|), profile.source, sMax);
      if |ctrl| > 0 && samples.Some? then
        SampleClosedLoop(h, pathFit, ctrl, SampleCount(|ctrl|), profile.source, sMax);
        Some(View(profile, samples))
      else Some(View(profile, samples))
  }

  /** A drag of velocity point `k` to height `y` followed by `handle_velocity_drag`: the refitted
      profile, then the path resampled with it and the current loop total `sMax`. `None` is the
      drag of an index past the end. */
  function DragSpline(h: Hypot, fit: VelocityFit, pathFit: PathFit, ctrl: seq<Point>, prev: Profile,
                      k: nat, y: real, sMax: real): (r: Option<View>)
    requires |prev.s| == |prev.v|
    ensures r.None? <==> k >= |prev.v|
    ensures r.Some? ==> r.value.profile.s == prev.s && |r.value.profile.v| == |prev.v|
    ensures r.Some? ==> r.value.profile.v[k] == Max0(y)
    ensures r.Some? && |ctrl| == 1 && |prev.s| == 1 ==>
      r.value.samples == Some(Flat(SampleCount(1), ctrl[0], Max0(y)))
    ensures r.Some? && r.value.samples.None? ==> |ctrl| > 1
    ensures r.Some? && |ctrl| > 0 && r.value.samples.Some? ==>
      IsLoop(r.value.samples.value, SampleCount(|ctrl|))
  {
    match DragProfile(fit, prev, k, y)
    case None => None
    case Some(profile) =>
      var samples := SampleClosed(h, pathFit, ctrl, SampleCount(|ctrl|), profile.source, sMax);
      if |ctrl| > 0 && samples.Some? then
        SampleClosedLoop(h, pathFit, ctrl, SampleCount(|ctrl|), profile.source, sMax);
        Some(View(profile, samples))
      else Some(View(profile, samples))
  }
}

=== FILE: export.dfy ===
/** The structural part of `MainWindow.save_csv` (graphic_editor/application.py): the
    curvature column is computed on the sampled loop padded periodically by two samples on
    each side, with zero denominators replaced by machine epsilon, and trimmed back to the
    original length. The finite differences (`np.gradient`) and the power `** 1.5` are foreign
    numerics and enter as parameters. */
module Export {
  import opened RealSeq

  /** `a[-2:]`: the last two entries, or all of them when there are fewer. */
  function LastTwo<T>(a: seq<T>): (r: seq<T>)
    ensures |r| == if |a| < 2 then |a| else 2
    ensures r == a[|a| - |r|..]
  {
    if |a| < 2 then a else a[|a| - 2..]
  }

  /** `a[:2]`: the first two entries, or all of them when there are fewer. */
  function FirstTwo<T>(a: seq<T>): (r: seq<T>)
    ensures |r| == if |a| < 2 then |a| else 2
    ensures r == a[..|r|]
  {
    if |a| < 2 then a else a[..2]
  }

  /** `np.concatenate((a[-2:], a, a[:2]))`: the periodic extension used for `x_ext`, `y_ext`. */
  function WrapPad<T>(a: seq<T>): (r: seq<T>)
    ensures |r| == |a| + 2 * |FirstTwo(a)|
  {
    LastTwo(a) + a + FirstTwo(a)
  }

  /** `a[2:-2]` with Python's slice rules: empty unless more than four entries. */
  function Trim<T>(a: seq<T>): (r: seq<T>)
    ensures |a| <= 4 ==> r == []
    ensures |a| > 4 ==> |r| == |a| - 4 && forall i :: 0 <= i < |r| ==> r[i] == a[i + 2]
  {
    if |a| <= 4 then [] else a[2..|a| - 2]
  }

  /** On a loop of at least two samples, the padding puts the last two samples before the
      first and the first two after the last, and trimming the padding gives the loop back. */
  lemma WrapPadNeighbours<T>(a: seq<T>)
    requires |a| >= 2
    ensures var n := |a|;
      var e := WrapPad(a);
      && |e| == n + 4
      && e[0] == a[n - 2] && e[1] == a[n - 1]
      && (forall j :: 0 <= j < n ==> e[j + 2] == a[j])
      && e[n + 2] == a[0] && e[n + 3] == a[1]
      && Trim(e) == a
  {
    var e := WrapPad(a);
    assert e == a[|a| - 2..] + a + a[..2];
    forall j | 0 <= j < |a| ensures e[j + 2] == a[j] {
      assert e[j + 2] == (a[|a| - 2..] + a)[j + 2];
    }
    assert Trim(e) == a;
  }

  /** With fewer than two samples the trimmed column is empty: the padded array of one
      sample has three entries and loses them all. */
  lemma WrapPadShort<T>(a: seq<T>)
    requires |a| < 2
    ensures |WrapPad(a)| == 3 * |a| && Trim(WrapPad(a)) == []
  {
  }

  /** `np.finfo(float).eps`, the gap between 1.0 and the next double: 2^-52. */
  const Eps: real := 1.0 / 4503599627370496.0

  /** `denom[denom == 0] = np.finfo(float).eps`. */
  function Guard(d: seq<real>): (r: seq<real>)
    ensures |r| == |d|
    ensures forall i :: 0 <= i < |d| ==> r[i] == (if d[i] == 0.0 then Eps else d[i])
  {
    seq(|d|, i requires 0 <= i < |d| => if d[i] == 0.0 then Eps else d[i])
  }

  /** After the guard a denominator of non-negative entries is strictly positive, and every
      entry that was not zero is untouched. */
  lemma GuardPositive(d: seq<real>)
    requires NonNegative(d)
    ensures forall i :: 0 <= i < |d| ==> 0.0 < Guard(d)[i]
    ensures forall i :: 0 <= i < |d| && d[i] != 0.0 ==> Guard(d)[i] == d[i]
  {
    forall i | 0 <= i < |d| ensures 0.0 < Guard(d)[i] {
      assert Eps > 0.0;
    }
  }

  /** `x ** 1.5` on non-negative arguments, foreign to the model: only its sign is known. */
  type Power = p: real -> real | forall x: real :: 0.0 <= p(x) witness (x: real) => 0.0

  /** `dx * dx + dy * dy`: the squared speed along the sampled path. */
  function SpeedSquared(dx: real, dy: real): real {
    dx * dx + dy * dy
  }

  /** `dx * d2y - d2x * dy`: the numerator of the signed curvature. */
  function Cross(dx: real, dy: real, ddx: real, ddy: real): real {
    dx * ddy - ddx * dy
  }

  /** `(dx_dt * dx_dt + dy_dt * dy_dt) ** 1.5`, entry by entry. */
  function Denominators(p: Power, dx: seq<real>, dy: seq<real>): (d: seq<real>)
    requires |dx| == |dy|
    ensures |d| == |dx| && NonNegative(d)
    ensures forall i :: 0 <= i < |dx| ==> d[i] == p(SpeedSquared(dx[i], dy[i]))
  {
    seq(|dx|, i requires 0 <= i < |dx| => p(SpeedSquared(dx[i], dy[i])))
  }

  /** `q` is the quotient `num / den`. */
  predicate IsQuotient(q: real, num: real, den: real) {
    q * den == num
  }

  /** One division of `kappa_full`, by a denominator the guard made positive. */
  function Quotient(num: real, den: real): (q: real)
    requires 0.0 < den
    ensures IsQuotient(q, num, den)
  {
    num / den
  }

  /** `dx_dt * d2y - d2x * dy_dt`, entry by entry. */
  function Crosses(dx: seq<real>, dy: seq<real>, ddx: seq<real>, ddy: seq<real>): (c: seq<real>)
    requires |dx| == |dy| == |ddx| == |ddy|
    ensures |c| == |dx| && forall i :: 0 <= i < |dx| ==> c[i] == Cross(dx[i], dy[i], ddx[i], ddy[i])
  {
    seq(|dx|, i requires 0 <= i < |dx| => Cross(dx[i], dy[i], ddx[i], ddy[i]))
  }

  /** Entry-by-entry division by positive denominators. */
  function Quotients(n: seq<real>, d: seq<real>): (q: seq<real>)
    requires |n| == |d| && forall i :: 0 <= i < |d| ==> 0.0 < d[i]
    ensures |q| == |n| && forall i :: 0 <= i < |n| ==> IsQuotient(q[i], n[i], d[i])
  {
    seq(|n|, i requires 0 <= i < |n| => Quotient(n[i], d[i]))
  }

  /** `kappa_full = (dx_dt * d2y - d2x * dy_dt) / denom` with the guarded denominator, and
      `kappa = kappa_full[2:-2]`. Every division is by a positive number, and the curvature
      column lines up with the samples: entry `j` comes from padded entry `j + 2`. */
  function Curvature(p: Power, dx: seq<real>, dy: seq<real>, ddx: seq<real>, ddy: seq<real>): (kappa: seq<real>)
    requires |dx| == |dy| == |ddx| == |ddy|
    ensures |dx| > 4 ==> |kappa| == |dx| - 4
    ensures |dx| <= 4 ==> kappa == []
    ensures forall j :: 0 <= j < |kappa| ==>
      && 0.0 < Guard(Denominators(p, dx, dy))[j + 2]
      && IsQuotient(kappa[j], Cross(dx[j + 2], dy[j + 2], ddx[j + 2], ddy[j + 2]), Guard(Denominators(p, dx, dy))[j + 2])
  {
    var d := Guard(Denominators(p, dx, dy));
    GuardPositive(Denominators(p, dx, dy));
    Trim(Quotients(Crosses(dx, dy, ddx, ddy), d))
  }

  /** The curvature column of a loop of `n >= 2` samples has exactly `n` entries, as many as
      the other columns of the export table. */
  lemma CurvatureMatchesSamples(p: Power, xs: seq<real>, dx: seq<real>, dy: seq<real>, ddx: seq<real>, ddy: seq<real>)
    requires |xs| >= 2
    requires |dx| == |dy| == |ddx| == |ddy| == |WrapPad(xs)|
    ensures |Curvature(p, dx, dy, ddx, ddy)| == |xs|
  {
    WrapPadNeighbours(xs);
  }
}

=== FILE: geometry.dfy ===
/** Plane geometry of the editor: points, the foreign `np.hypot`, the clamped projection
    of a point onto a segment (graphic_editor/application.py, `insert_nearest`), and the
    `np.allclose` tolerance test of `spline_sample_closed`. */
module Geometry {
  import opened RealSeq

  datatype Point = Point(x: real, y: real)

  /** `np.hypot(dx, dy)`. Floating-point square roots are foreign to the model; all the
      editor relies on is that a distance is never negative. */
  type Hypot = h: (real, real) -> real | forall dx: real, dy: real :: 0.0 <= h(dx, dy)
    witness (dx: real, dy: real) => 0.0

  /** Length of the chord from `a` to `b`: `hypot` of the coordinate differences, as
      `np.hypot(np.diff(x), np.diff(y))` computes it. */
  function Chord(h: Hypot, a: Point, b: Point): (r: real)
    ensures 0.0 <= r
  {
    h(b.x - a.x, b.y - a.y)
  }

  /** A distance function that orders offsets as their squared lengths `dx * dx + dy * dy`
      are, as the true `hypot` does. */
  ghost predicate OrdersLikeLength(h: Hypot) {
    forall dx: real, dy: real, ex: real, ey: real {:trigger NoFarther(h, dx, dy, ex, ey)}
      :: Sq(dx) + Sq(dy) <= Sq(ex) + Sq(ey) ==> NoFarther(h, dx, dy, ex, ey)
  }

  /** The offset `(dx, dy)` is no farther than `(ex, ey)` as measured by `h`. */
  ghost predicate NoFarther(h: Hypot, dx: real, dy: real, ex: real, ey: real) {
    h(dx, dy) <= h(ex, ey)
  }

  function Sq(a: real): real {
    a * a
  }

  lemma SqPositive(a: real)
    ensures 0.0 <= Sq(a)
    ensures a != 0.0 ==> 0.0 < Sq(a)
  {
    if a > 0.0 {
      calc { Sq(a); == a * a; > 0.0; }
    } else if a < 0.0 {
      calc { Sq(a); == a * a; == (-a) * (-a); > 0.0; }
    } else {
      calc { Sq(a); == a * a; == 0.0; }
    }
  }

  /** A segment with a non-zero coordinate difference has a positive squared length. */
  lemma SquaredLengthPositive(dx: real, dy: real)
    requires !(dx == 0.0 && dy == 0.0)
    ensures 0.0 < Sq(dx) + Sq(dy)
  {
    SqPositive(dx);
    SqPositive(dy);
  }

  /** Squared Euclidean distance, used to state what the projection means. */
  function SqDist(p: Point, q: Point): real {
    Sq(p.x - q.x) + Sq(p.y - q.y)
  }

  /** The point at parameter `t` along the segment from `a` to `b`. */
  function At(a: Point, b: Point, t: real): Point {
    Point(a.x + t * (b.x - a.x), a.y + t * (b.y - a.y))
  }

  /** `np.clip(t, 0, 1)`. */
  function ClampUnit(t: real): (r: real)
    ensures 0.0 <= r <= 1.0
    ensures 0.0 <= t <= 1.0 ==> r == t
    ensures t < 0.0 ==> r == 0.0
    ensures 1.0 < t ==> r == 1.0
  {
    if t < 0.0 then 0.0 else if t > 1.0 then 1.0 else t
  }

  /** `(x0 - x1) * dx + (y0 - y1) * dy`: the dot product of `p - a` with `b - a`. */
  function Dot(p: Point, a: Point, b: Point): real {
    (p.x - a.x) * (b.x - a.x) + (p.y - a.y) * (b.y - a.y)
  }

  /** `dx * dx + dy * dy`: the squared length of the segment from `a` to `b`. */
  function SquaredLength(a: Point, b: Point): real {
    Sq(b.x - a.x) + Sq(b.y - a.y)
  }

  /** The parameter of the clamped projection: 0 on a zero-length segment, otherwise the
      perpendicular foot's parameter clipped into `[0, 1]`. */
  function ProjectionParam(p: Point, a: Point, b: Point): (t: real)
    ensures 0.0 <= t <= 1.0
  {
    var dx := b.x - a.x;
    var dy := b.y - a.y;
    if dx == 0.0 && dy == 0.0 then 0.0
    else
      SquaredLengthPositive(dx, dy);
      ClampUnit(Dot(p, a, b) / SquaredLength(a, b))
  }

  /** `proj` in `insert_nearest`: the start point of a zero-length segment, otherwise the
      clamped perpendicular foot. It always lies on the segment. */
  function ClampedProjection(p: Point, a: Point, b: Point): (q: Point)
    ensures q == At(a, b, ProjectionParam(p, a, b))
  {
    var dx := b.x - a.x;
    var dy := b.y - a.y;
    if dx == 0.0 && dy == 0.0 then a
    else
      var t := ProjectionParam(p, a, b);
      Point(a.x + t * dx, a.y + t * dy)
  }

  /** `d` in `insert_nearest`: the distance from `p` to its clamped projection. */
  function SegmentDistance(h: Hypot, p: Point, a: Point, b: Point): (d: real)
    ensures 0.0 <= d
    ensures exists t :: 0.0 <= t <= 1.0 && d == h(p.x - At(a, b, t).x, p.y - At(a, b, t).y)
    ensures a == b ==> d == h(p.x - a.x, p.y - a.y)
  {
    var q := ClampedProjection(p, a, b);
    h(p.x - q.x, p.y - q.y)
  }

  /** `np.allclose(a, b)` with numpy's default tolerances `rtol = 1e-5`, `atol = 1e-8`. */
  predicate AllClose(a: Point, b: Point) {
    && Abs(a.x - b.x) <= 0.00000001 + 0.00001 * Abs(b.x)
    && Abs(a.y - b.y) <= 0.00000001 + 0.00001 * Abs(b.y)
  }

  /** Every point is close to itself. */
  lemma AllCloseReflexive(a: Point)
    ensures AllClose(a, a)
  {
  }

  /** The tolerance scales with the second argument only, so closeness is not symmetric. */
  lemma AllCloseNotSymmetric(a: Point, b: Point)
    requires a == Point(99998.99999999, 0.0) && b == Point(100000.0, 0.0)
    ensures AllClose(a, b) && !AllClose(b, a)
  {
  }
}

=== FILE: nearest.dfy ===
/** Why `insert_nearest` measures the right thing (graphic_editor/application.py): the clamped
    projection of a point onto a segment is the point of the segment nearest to it, so the
    distance it computes is the point-to-segment distance. The squared distance to `At(a, b, u)`
    is a quadratic in `u`, and the clamped foot minimises it over `[0, 1]`. */
module Nearest {
  import opened Geometry

  /** Expanding the square of one coordinate offset. */
  lemma SqAlong(w: real, u: real, d: real)
    ensures Sq(w - u * d) == Sq(w) - 2.0 * u * (w * d) + u * u * Sq(d)
  {
    calc {
      Sq(w - u * d);
      == (w - u * d) * (w - u * d);
      == w * w - 2.0 * u * (w * d) + (u * u) * (d * d);
      == Sq(w) - 2.0 * u * (w * d) + u * u * Sq(d);
    }
  }

  /** The quadratic `sq - 2uc + u^2 l` in the segment parameter `u`. */
  function Quad(sq: real, c: real, l: real, u: real): real {
    sq - 2.0 * u * c + u * u * l
  }

  /** The difference of the quadratic at two parameters, factored. */
  lemma Gap(sq: real, c: real, l: real, u: real, t: real)
    ensures Quad(sq, c, l, u) - Quad(sq, c, l, t) == (u - t) * ((u + t) * l - 2.0 * c)
  {
    calc {
      Quad(sq, c, l, u) - Quad(sq, c, l, t);
      == (sq - 2.0 * u * c + u * u * l) - (sq - 2.0 * t * c + t * t * l);
      == (u * u - t * t) * l - 2.0 * (u - t) * c;
      == (u - t) * ((u + t) * l - 2.0 * c);
    }
  }

  /** A product of non-negative reals is non-negative. */
  lemma NonNegProduct(x: real, y: real)
    requires 0.0 <= x && 0.0 <= y
    ensures 0.0 <= x * y
  {
  }

  /** The squared distance to a point of the segment, written with offsets from `a`. */
  lemma SqDistAtOffsets(p: Point, a: Point, b: Point, u: real)
    ensures SqDist(p, At(a, b, u))
         == Sq((p.x - a.x) - u * (b.x - a.x)) + Sq((p.y - a.y) - u * (b.y - a.y))
  {
    var q := At(a, b, u);
    assert p.x - q.x == (p.x - a.x) - u * (b.x - a.x);
    assert p.y - q.y == (p.y - a.y) - u * (b.y - a.y);
  }

  /** The squared distance to `At(a, b, u)` is the quadratic in `u` built from the dot product
      and the squared length of the segment. */
  lemma SqDistAt(p: Point, a: Point, b: Point, u: real)
    ensures SqDist(p, At(a, b, u)) == Quad(SqDist(p, a), Dot(p, a, b), SquaredLength(a, b), u)
  {
    calc {
      SqDist(p, At(a, b, u));
      == { SqDistAtOffsets(p, a, b, u); }
         Sq((p.x - a.x) - u * (b.x - a.x)) + Sq((p.y - a.y) - u * (b.y - a.y));
      == { SqAlong(p.x - a.x, u, b.x - a.x); SqAlong(p.y - a.y, u, b.y - a.y); }
         (Sq(p.x - a.x) - 2.0 * u * ((p.x - a.x) * (b.x - a.x)) + u * u * Sq(b.x - a.x))
         + (Sq(p.y - a.y) - 2.0 * u * ((p.y - a.y) * (b.y - a.y)) + u * u * Sq(b.y - a.y));
      == { QuadSplit(p, a, b, u); }
         Quad(SqDist(p, a), Dot(p, a, b), SquaredLength(a, b), u);
    }
  }

  /** The two coordinate expansions add up to one quadratic. */
  lemma QuadSplit(p: Point, a: Point, b: Point, u: real)
    ensures (Sq(p.x - a.x) - 2.0 * u * ((p.x - a.x) * (b.x - a.x)) + u * u * Sq(b.x - a.x))
          + (Sq(p.y - a.y) - 2.0 * u * ((p.y - a.y) * (b.y - a.y)) + u * u * Sq(b.y - a.y))
         == Quad(SqDist(p, a), Dot(p, a, b), SquaredLength(a, b), u)
  {
    QuadAdds(Sq(p.x - a.x), Sq(p.y - a.y), (p.x - a.x) * (b.x - a.x), (p.y - a.y) * (b.y - a.y),
             Sq(b.x - a.x), Sq(b.y - a.y), u);
  }

  /** Quadratics in the same parameter add coefficient by coefficient. */
  lemma QuadAdds(sx: real, sy: real, cx: real, cy: real, lx: real, ly: real, u: real)
    ensures (sx - 2.0 * u * cx + u * u * lx) + (sy - 2.0 * u * cy + u * u * ly)
         == Quad(sx + sy, cx + cy, lx + ly, u)
  {
    calc {
      Quad(sx + sy, cx + cy, lx + ly, u);
      == (sx + sy) - 2.0 * u * (cx + cy) + (u * u) * (lx + ly);
      == (sx + sy) - (2.0 * u * cx + 2.0 * u * cy) + ((u * u) * lx + (u * u) * ly);
    }
  }

  /** When the foot lies before `a`, the clamped parameter 0 is no worse than any `u` in range. */
  lemma BelowSegment(c: real, l: real, u: real)
    requires c < 0.0 && l > 0.0 && 0.0 <= u
    ensures (u - 0.0) * ((u + 0.0) * l - 2.0 * c) >= 0.0
  {
    NonNegProduct(u, l);
    NonNegProduct(u, u * l - 2.0 * c);
  }

  /** When the foot lies past `b`, the clamped parameter 1 is no worse than any `u` in range. */
  lemma BeyondSegment(c: real, l: real, u: real)
    requires c > l && l > 0.0 && u <= 1.0
    ensures (u - 1.0) * ((u + 1.0) * l - 2.0 * c) >= 0.0
  {
    NonNegProduct(1.0 - u, l);
    assert (u + 1.0) * l <= 2.0 * l;
    NonNegProduct(1.0 - u, 2.0 * c - (u + 1.0) * l);
  }

  /** When the foot lies on the segment, it is no worse than any other parameter. */
  lemma AtFoot(c: real, l: real, u: real, t: real)
    requires l > 0.0 && c == t * l
    ensures (u - t) * ((u + t) * l - 2.0 * c) >= 0.0
  {
    calc {
      (u - t) * ((u + t) * l - 2.0 * c);
      == (u - t) * ((u - t) * l);
      == Sq(u - t) * l;
    }
    SqPositive(u - t);
    NonNegProduct(Sq(u - t), l);
  }

  /** The clamped foot minimises the quadratic over `[0, 1]`. */
  lemma VertexMinimal(c: real, l: real, u: real, t: real)
    requires l > 0.0 && 0.0 <= u <= 1.0
    requires t == ClampUnit(c / l)
    ensures (u - t) * ((u + t) * l - 2.0 * c) >= 0.0
  {
    var foot := c / l;
    assert c == foot * l;
    if foot < 0.0 {
      assert c < 0.0 by { calc { c; == foot * l; < 0.0; } }
      BelowSegment(c, l, u);
    } else if foot > 1.0 {
      assert c > l by { calc { c; == foot * l; > 1.0 * l; == l; } }
      BeyondSegment(c, l, u);
    } else {
      AtFoot(c, l, u, t);
    }
  }

  /** The clamped projection is at least as close to `p` as every point of the segment,
      including the degenerate segment of two equal end points. */
  lemma ProjectionIsNearest(p: Point, a: Point, b: Point, u: real)
    requires 0.0 <= u <= 1.0
    ensures SqDist(p, ClampedProjection(p, a, b)) <= SqDist(p, At(a, b, u))
  {
    var wx := p.x - a.x;
    var wy := p.y - a.y;
    var dx := b.x - a.x;
    var dy := b.y - a.y;
    var t := ProjectionParam(p, a, b);
    var c := Dot(p, a, b);
    var l := SquaredLength(a, b);
    var sq := SqDist(p, a);
    if dx == 0.0 && dy == 0.0 {
      assert At(a, b, u) == a && ClampedProjection(p, a, b) == a;
    } else {
      SquaredLengthPositive(dx, dy);
      assert t == ClampUnit(c / l);
      calc {
        SqDist(p, At(a, b, u)) - SqDist(p, ClampedProjection(p, a, b));
        == SqDist(p, At(a, b, u)) - SqDist(p, At(a, b, t));
        == { SqDistAt(p, a, b, u); SqDistAt(p, a, b, t); }
           Quad(sq, c, l, u) - Quad(sq, c, l, t);
        == { Gap(sq, c, l, u, t); }
           (u - t) * ((u + t) * l - 2.0 * c);
        >= { VertexMinimal(c, l, u, t); }
           0.0;
      }
    }
  }

  /** The distance `insert_nearest` measures from a point to a segment is the least
      distance from that point to any point of the segment. */
  lemma SegmentDistanceIsMinimal(h: Hypot, p: Point, a: Point, b: Point, u: real)
    requires OrdersLikeLength(h) && 0.0 <= u <= 1.0
    ensures SegmentDistance(h, p, a, b) <= h(p.x - At(a, b, u).x, p.y - At(a, b, u).y)
  {
    ProjectionIsNearest(p, a, b, u);
    HypotMonotone(h, p, ClampedProjection(p, a, b), At(a, b, u));
  }

  /** A length function that orders like the Euclidean length turns a comparison of squared
      distances into a comparison of lengths. */
  lemma HypotMonotone(h: Hypot, p: Point, q: Point, r: Point)
    requires OrdersLikeLength(h) && SqDist(p, q) <= SqDist(p, r)
    ensures h(p.x - q.x, p.y - q.y) <= h(p.x - r.x, p.y - r.y)
  {
    assert NoFarther(h, p.x - q.x, p.y - q.y, p.x - r.x, p.y - r.y);
  }
}

=== FILE: outcome.dfy ===
/** The editor reports a Python exception raised inside an operation as a value. */
module Outcome {

  /** `None` stands for an operation that raised (an index out of range, a foreign
      evaluation that failed); `Some(value)` for one that returned `value`. */
  datatype Option<+T> = None | Some(value: T)
}

=== FILE: realseq.dfy ===
/** Sequences of reals: the numpy array operations the editor is built from
    (clamping, cumulative sums, first arg-minimum, filling, loop closure). */
module RealSeq {

  /** `max(0, x)` and `np.maximum(0, x)`. */
  function Max0(x: real): (r: real)
    ensures 0.0 <= r && x <= r
    ensures r == x || r == 0.0
  {
    if x >= 0.0 then x else 0.0
  }

  function Abs(x: real): (r: real)
    ensures 0.0 <= r && (r == x || r == -x)
  {
    if x >= 0.0 then x else -x
  }

  predicate NonNegative(v: seq<real>) {
    forall i :: 0 <= i < |v| ==> 0.0 <= v[i]
  }

  predicate NonDecreasing(s: seq<real>) {
    forall i, j :: 0 <= i <= j < |s| ==> s[i] <= s[j]
  }

  predicate StrictlyIncreasing(s: seq<real>) {
    forall i, j :: 0 <= i < j < |s| ==> s[i] < s[j]
  }

  /** The periodic-velocity convention: with more than one entry, the last equals the first. */
  predicate Periodic(v: seq<real>) {
    |v| > 1 ==> v[|v| - 1] == v[0]
  }

  /** `np.maximum(0, v)` on a whole array. */
  function ClampAll(v: seq<real>): (r: seq<real>)
    ensures |r| == |v| && NonNegative(r)
    ensures forall i :: 0 <= i < |v| ==> r[i] == Max0(v[i])
    ensures forall i :: 0 <= i < |v| && 0.0 <= v[i] ==> r[i] == v[i]
    ensures forall i :: 0 <= i < |v| && v[i] < 0.0 ==> r[i] == 0.0
  {
    seq(|v|, i requires 0 <= i < |v| => Max0(v[i]))
  }

  /** `np.full(n, c)` and `np.full_like(a, c)` with `len(a) == n`. */
  function Fill(n: nat, c: real): (r: seq<real>)
    ensures |r| == n
    ensures forall i :: 0 <= i < n ==> r[i] == c
  {
    seq(n, _ => c)
  }

  /** `a[:1]`: the first element, or nothing when `a` is empty. */
  function Head<T>(a: seq<T>): (r: seq<T>)
    ensures |a| == 0 ==> r == []
    ensures |a| > 0 ==> r == [a[0]]
  {
    if |a| == 0 then [] else a[..1]
  }

  /** `np.concatenate([a, a[:1]])`: repeats the first sample at the end to close a loop. */
  function Closed<T>(a: seq<T>): (r: seq<T>)
    ensures |a| == 0 ==> r == []
    ensures |a| > 0 ==> |r| == |a| + 1 && r[..|a|] == a && r[|a|] == a[0]
    ensures forall i :: 0 <= i < |a| ==> r[i] == a[i]
  {
    a + Head(a)
  }

  /** `np.sum`, accumulated left to right. */
  function Sum(d: seq<real>): (r: real)
    ensures NonNegative(d) ==> 0.0 <= r
    ensures NonNegative(d) && |d| > 0 ==> d[|d| - 1] <= r
  {
    if |d| == 0 then 0.0 else Sum(d[..|d| - 1]) + d[|d| - 1]
  }

  /** `np.cumsum`: entry `i` is the sum of the first `i + 1` terms. */
  function CumSum(d: seq<real>): (c: seq<real>)
    ensures |c| == |d|
    ensures forall i :: 0 <= i < |c| ==> c[i] == Sum(d[..i + 1])
  {
    if |d| == 0 then []
    else
      var front := d[..|d| - 1];
      assert forall j | 0 <= j <= |front| :: front[..j] == d[..j];
      assert d[..|d|] == d;
      CumSum(front) + [Sum(d)]
  }

  /** A sum of non-negative terms grows with the prefix it covers. */
  lemma {:induction false} SumPrefixMonotone(d: seq<real>, i: nat, j: nat)
    requires NonNegative(d) && i <= j <= |d|
    ensures Sum(d[..i]) <= Sum(d[..j])
    decreases j - i
  {
    if i < j {
      SumPrefixMonotone(d, i, j - 1);
      assert d[..j][..j - 1] == d[..j - 1];
    }
  }

  /** Cumulative sums of non-negative terms are non-negative and non-decreasing. */
  lemma CumSumMonotone(d: seq<real>)
    requires NonNegative(d)
    ensures NonDecreasing(CumSum(d)) && NonNegative(CumSum(d))
  {
    var c := CumSum(d);
    forall i, j | 0 <= i <= j < |c| ensures c[i] <= c[j] {
      SumPrefixMonotone(d, i + 1, j + 1);
    }
    forall i | 0 <= i < |c| ensures 0.0 <= c[i] {
      SumPrefixMonotone(d, 0, i + 1);
    }
  }

  lemma CumSumFirst(d: seq<real>)
    requires 0 < |d|
    ensures CumSum(d)[0] == d[0]
  {
    var one := d[..1];
    assert one[..|one| - 1] == [];
    calc {
      CumSum(d)[0];
      == Sum(one);
      == Sum(one[..|one| - 1]) + one[|one| - 1];
      == d[0];
    }
  }

  /** Consecutive cumulative sums differ by exactly the next term. */
  lemma CumSumStep(d: seq<real>, i: nat)
    requires i + 1 < |d|
    ensures CumSum(d)[i + 1] == CumSum(d)[i] + d[i + 1]
  {
    assert d[..i + 2][..i + 1] == d[..i + 1];
  }

  /** The index of the first minimum: the scan `if d < best: best, idx = d, i` of
      `insert_nearest`, and `np.argmin`, which both keep the earliest of equal minima. */
  function ArgMin(d: seq<real>): (k: nat)
    requires |d| > 0
    ensures k < |d|
    ensures forall j :: 0 <= j < |d| ==> d[k] <= d[j]
    ensures forall j :: 0 <= j < k ==> d[k] < d[j]
  {
    if |d| == 1 then 0
    else
      var b := ArgMin(d[..|d| - 1]);
      if d[|d| - 1] < d[b] then |d| - 1 else b
  }

  /** The first minimum is unique: any index with both properties is `ArgMin`. */
  lemma ArgMinUnique(d: seq<real>, k: nat)
    requires k < |d|
    requires forall j :: 0 <= j < |d| ==> d[k] <= d[j]
    requires forall j :: 0 <= j < k ==> d[k] < d[j]
    ensures ArgMin(d) == k
  {
  }
}

=== FILE: reparam.dfy ===
/** Carrying the velocity profile over to edited control points: the velocity block of
    `MainWindow.update_spline` (graphic_editor/application.py). The old control velocities are
    deduplicated by arc length, extended by one wrapped knot on each side, and interpolated
    piecewise linearly at the new control points' arc lengths rescaled onto the old ones. */
module Reparam {
  import opened Outcome
  import opened RealSeq
  import opened Geometry
  import opened ArcLength
  import opened Velocity

  /** Index `i` starts a run of equal arc lengths. */
  predicate IsFirst(s: seq<real>, i: int) {
    0 <= i < |s| && (i == 0 || s[i - 1] != s[i])
  }

  /** The `unique_idx` of `np.unique(s, return_index=True)` for a non-decreasing `s`: the
      first index of each distinct value, in increasing order. */
  function FirstOccurrences(s: seq<real>): (idx: seq<nat>)
    ensures forall j :: 0 <= j < |idx| ==> idx[j] < |s| && IsFirst(s, idx[j])
    ensures forall j, k :: 0 <= j < k < |idx| ==> idx[j] < idx[k]
    ensures |s| > 0 ==> |idx| > 0 && idx[0] == 0
  {
    if |s| == 0 then []
    else
      var front := s[..|s| - 1];
      var f := FirstOccurrences(front);
      assert forall i :: 0 <= i < |s| - 1 ==> (IsFirst(front, i) <==> IsFirst(s, i));
      if |s| == 1 || s[|s| - 2] != s[|s| - 1] then f + [|s| - 1] else f
  }

  /** Every run start is kept, and the last kept index holds the table's last value. */
  lemma {:induction false} FirstOccurrencesComplete(s: seq<real>)
    ensures forall i :: IsFirst(s, i) ==> i in FirstOccurrences(s)
    ensures |s| > 0 ==> s[FirstOccurrences(s)[|FirstOccurrences(s)| - 1]] == s[|s| - 1]
  {
    if |s| > 0 {
      var front := s[..|s| - 1];
      FirstOccurrencesComplete(front);
      assert forall i :: 0 <= i < |s| - 1 ==> (IsFirst(front, i) <==> IsFirst(s, i));
    }
  }

  /** On a non-decreasing table, starting a run is the same as `np.unique`'s notion of a first
      occurrence: no earlier entry holds the same value. */
  lemma IsFirstMeansFirstOccurrence(s: seq<real>, i: nat)
    requires NonDecreasing(s) && i < |s|
    ensures IsFirst(s, i) <==> forall j :: 0 <= j < i ==> s[j] != s[i]
  {
    if IsFirst(s, i) && i > 0 {
      forall j | 0 <= j < i ensures s[j] != s[i] {
        assert s[j] <= s[i - 1];
      }
    }
  }

  /** The arc lengths `unique_s` picked out by `unique_idx`. */
  function Pick(a: seq<real>, idx: seq<nat>): (r: seq<real>)
    requires forall j :: 0 <= j < |idx| ==> idx[j] < |a|
    ensures |r| == |idx| && forall j :: 0 <= j < |idx| ==> r[j] == a[idx[j]]
  {
    seq(|idx|, j requires 0 <= j < |idx| => a[idx[j]])
  }

  /** `unique_s` is strictly increasing, holds every value of the table, and ends with the
      table's last entry. */
  lemma UniqueSorted(s: seq<real>)
    requires NonDecreasing(s)
    ensures var u := Pick(s, FirstOccurrences(s));
      && StrictlyIncreasing(u)
      && (forall i :: 0 <= i < |s| ==> s[i] in u)
      && (|s| > 0 ==> u[|u| - 1] == s[|s| - 1])
  {
    var idx := FirstOccurrences(s);
    var u := Pick(s, idx);
    FirstOccurrencesComplete(s);
    forall j, k | 0 <= j < k < |u| ensures u[j] < u[k] {
      assert idx[j] < idx[k] && IsFirst(s, idx[k]);
      assert s[idx[j]] <= s[idx[k] - 1];
    }
    forall i | 0 <= i < |s| ensures s[i] in u {
      RunStart(s, i);
      var r :| IsFirst(s, r) && s[r] == s[i];
      var j :| 0 <= j < |idx| && idx[j] == r;
      assert u[j] == s[i];
    }
  }

  /** Every entry belongs to a run that starts at some earlier index with the same value. */
  lemma {:induction false} RunStart(s: seq<real>, i: nat)
    requires i < |s|
    ensures exists r :: IsFirst(s, r) && s[r] == s[i]
  {
    if IsFirst(s, i) {
    } else {
      RunStart(s, i - 1);
    }
  }

  /** On a strictly increasing table every index starts its own run, so `np.unique` keeps
      everything in place. */
  lemma {:induction false} FirstOccurrencesOfIncreasing(s: seq<real>)
    requires StrictlyIncreasing(s)
    ensures FirstOccurrences(s) == seq(|s|, i => i)
  {
    if |s| > 0 {
      var front := s[..|s| - 1];
      FirstOccurrencesOfIncreasing(front);
      assert |s| == 1 || s[|s| - 2] != s[|s| - 1];
    }
  }

  /** `s_interp_domain`: the deduplicated arc lengths with one wrapped knot on each side. The
      left knot lies the last gap before the first knot (one unit before it when there are
      only two knots), the right knot lies the first gap after the last knot. */
  function WrapDomain(u: seq<real>, sLast: real): (r: seq<real>)
    requires |u| > 1
    ensures |r| == |u| + 2 && r[1..|u| + 1] == u
    ensures |u| > 2 ==> r[1] - r[0] == sLast - u[|u| - 2]
    ensures |u| == 2 ==> r[1] - r[0] == 1.0
    ensures r[|u| + 1] - r[|u|] == u[1] - u[0]
  {
    var left := if |u| > 2 then u[0] - (sLast - u[|u| - 2]) else u[0] - 1.0;
    var right := u[|u| - 1] + (u[1] - u[0]);
    [left] + u + [right]
  }

  /** The wrapped domain is strictly increasing when the deduplicated arc lengths are and end
      at the table's last entry, as `np.unique` guarantees. */
  lemma WrapDomainIncreasing(u: seq<real>, sLast: real)
    requires |u| > 1 && StrictlyIncreasing(u) && u[|u| - 1] == sLast
    ensures StrictlyIncreasing(WrapDomain(u, sLast))
  {
    var r := WrapDomain(u, sLast);
    assert forall i :: 1 <= i <= |u| ==> r[i] == u[i - 1];
    assert r[0] < r[1];
    assert r[|u|] < r[|u| + 1];
  }

  /** `v_interp_values`: the deduplicated velocities with the first velocity repeated at
      both wrapped knots. */
  function WrapValues(uv: seq<real>): (r: seq<real>)
    requires |uv| > 0
    ensures |r| == |uv| + 2 && r[1..|uv| + 1] == uv
    ensures r[0] == uv[0] && r[|uv| + 1] == uv[0]
  {
    [uv[0]] + uv + [uv[0]]
  }

  /** `np.searchsorted(xs, q)` (side `left`): the first index whose knot is not below `q`. */
  function SearchSorted(xs: seq<real>, q: real): (k: nat)
    ensures k <= |xs|
    ensures forall i :: 0 <= i < k ==> xs[i] < q
    ensures k < |xs| ==> q <= xs[k]
  {
    if |xs| == 0 || q <= xs[0] then 0 else 1 + SearchSorted(xs[1..], q)
  }

  /** The lower knot `lo` that `interp1d` uses for `q`: the search index clipped into
      `[1, |xs| - 1]`, minus one. Inside the knots, `q` lies in `(xs[lo], xs[lo + 1]]`;
      below them the first interval extrapolates, above them the last. */
  function Bracket(xs: seq<real>, q: real): (lo: nat)
    requires |xs| >= 2
    ensures lo + 1 < |xs|
    ensures q <= xs[0] ==> lo == 0
    ensures StrictlyIncreasing(xs) && xs[|xs| - 1] < q ==> lo == |xs| - 2
    ensures StrictlyIncreasing(xs) && xs[0] < q <= xs[|xs| - 1] ==> xs[lo] < q <= xs[lo + 1]
  {
    var k := SearchSorted(xs, q);
    if k < 1 then 0 else if k > |xs| - 1 then |xs| - 2 else k - 1
  }

  /** `interp1d(xs, ys, kind="linear", fill_value="extrapolate")(q)`: the straight line through
      the two knots around `q`, continued past the ends. */
  function Interp(xs: seq<real>, ys: seq<real>, q: real): real
    requires |xs| == |ys| && |xs| >= 2 && StrictlyIncreasing(xs)
  {
    var lo := Bracket(xs, q);
    Lerp(xs[lo], xs[lo + 1], ys[lo], ys[lo + 1], q)
  }

  /** The line through `(x0, y0)` and `(x1, y1)`, read at `q`. */
  function Lerp(x0: real, x1: real, y0: real, y1: real, q: real): real
    requires x0 < x1
  {
    (y1 - y0) / (x1 - x0) * (q - x0) + y0
  }

  /** Inside the domain, `interp1d(kind="linear")` never overshoots: the reading lies between the
      values at the two knots that bracket the query. */
  lemma InterpBetweenKnots(xs: seq<real>, ys: seq<real>, q: real)
    requires |xs| == |ys| && |xs| >= 2 && StrictlyIncreasing(xs) && xs[0] < q <= xs[|xs| - 1]
    ensures var lo := Bracket(xs, q);
      && (ys[lo] <= ys[lo + 1] ==> ys[lo] <= Interp(xs, ys, q) <= ys[lo + 1])
      && (ys[lo + 1] <= ys[lo] ==> ys[lo + 1] <= Interp(xs, ys, q) <= ys[lo])
  {
    var lo := Bracket(xs, q);
    assert xs[lo] < q <= xs[lo + 1];
    assert Interp(xs, ys, q) == Lerp(xs[lo], xs[lo + 1], ys[lo], ys[lo + 1], q);
    LinearStep(xs[lo], xs[lo + 1], ys[lo], ys[lo + 1], q);
  }

  /** One segment of the linear interpolant, read at a query inside it. */
  lemma LinearStep(x0: real, x1: real, y0: real, y1: real, q: real)
    requires x0 < q <= x1
    ensures y0 <= y1 ==> y0 <= Lerp(x0, x1, y0, y1, q) <= y1
    ensures y1 <= y0 ==> y1 <= Lerp(x0, x1, y0, y1, q) <= y0
  {
    var d := x1 - x0;
    var a := q - x0;
    var dy := y1 - y0;
    var t := a / d;
    DivNonNeg(a, d);
    assert t <= 1.0 by { if a < d { DivBelowOne(a, d); } }
    assert Lerp(x0, x1, y0, y1, q) == dy * t + y0 by {
      assert dy / d * a == dy * t;
    }
    ScaleWithin(dy, t);
  }

  /** A fraction of a step lies between no step and the whole step. */
  lemma ScaleWithin(dy: real, t: real)
    requires 0.0 <= t <= 1.0
    ensures 0.0 <= dy ==> 0.0 <= dy * t <= dy
    ensures dy <= 0.0 ==> dy <= dy * t <= 0.0
  {
    if 0.0 < dy {
      MulLe(dy, 0.0, t);
      MulLe(dy, t, 1.0);
    } else if dy < 0.0 {
      MulLe(-dy, 0.0, t);
      MulLe(-dy, t, 1.0);
    }
  }

  /** Linear interpolation reproduces the value at every knot. */
  lemma InterpAtKnot(xs: seq<real>, ys: seq<real>, i: nat)
    requires |xs| == |ys| && |xs| >= 2 && StrictlyIncreasing(xs) && i < |xs|
    ensures Interp(xs, ys, xs[i]) == ys[i]
  {
    SearchSortedAtKnot(xs, i);
    if i > 0 {
      var lo := i - 1;
      assert Bracket(xs, xs[i]) == lo;
      var dx := xs[i] - xs[lo];
      var dy := ys[i] - ys[lo];
      assert dx != 0.0;
      assert (dy / dx) * dx == dy;
    }
  }

  /** On strictly increasing knots, searching for a knot finds that knot's index. */
  lemma SearchSortedAtKnot(xs: seq<real>, i: nat)
    requires StrictlyIncreasing(xs) && i < |xs|
    ensures SearchSorted(xs, xs[i]) == i
  {
    var k := SearchSorted(xs, xs[i]);
    assert k <= i;
    assert k >= i;
  }

  /** `r` shifted by `n` whole periods of length `m`. */
  function Shifted(r: real, n: int, m: real): real {
    r + (n as real) * m
  }

  /** Python's `x % m` for a positive modulus: the remainder takes the sign of `m`. It is the
      one value in `[0, m)` that differs from `x` by a whole number of periods. */
  function PyMod(x: real, m: real): (r: real)
    requires m > 0.0
    ensures 0.0 <= r < m
    ensures exists n: int :: Shifted(r, n, m) == x
    ensures 0.0 <= x < m ==> r == x
  {
    var n := (x / m).Floor;
    FloorBounds(x, m);
    assert Shifted(x - m * (n as real), n, m) == x;
    x - m * (n as real)
  }

  /** At most one value in `[0, m)` differs from `x` by a whole number of periods, so the
      contract of `PyMod` determines Python's `%` completely. */
  lemma PyModUnique(x: real, m: real, r: real, n: int)
    requires m > 0.0 && 0.0 <= r < m && Shifted(r, n, m) == x
    ensures PyMod(x, m) == r
  {
    var r0 := PyMod(x, m);
    var n0 :| Shifted(r0, n0, m) == x;
    ShiftBetweenRemainders(r, r0, n, n0, m);
  }

  /** Two remainders in `[0, m)` a whole number of periods apart are equal. */
  lemma ShiftBetweenRemainders(r: real, r0: real, n: int, n0: int, m: real)
    requires m > 0.0 && 0.0 <= r < m && 0.0 <= r0 < m
    requires Shifted(r, n, m) == Shifted(r0, n0, m)
    ensures r == r0
  {
    ShiftDifference(r, r0, n, n0, m);
    if n0 - n >= 1 {
      WholePeriodsAtLeast(n0 - n, m);
    } else if n0 - n <= -1 {
      WholePeriodsAtLeast(n - n0, m);
      WholePeriodsNegate(n0 - n, m);
    }
  }

  /** Equal shifts of two values differ by the difference of their period counts. */
  lemma ShiftDifference(r: real, r0: real, n: int, n0: int, m: real)
    requires Shifted(r, n, m) == Shifted(r0, n0, m)
    ensures r - r0 == Shifted(0.0, n0 - n, m)
  {
    assert ((n0 - n) as real) * m == (n0 as real) * m - (n as real) * m;
  }

  /** At least one whole period is at least one period long. */
  lemma WholePeriodsAtLeast(k: int, m: real)
    requires k >= 1 && m > 0.0
    ensures Shifted(0.0, k, m) >= m
  {
    MulLe(m, 1.0, k as real);
    assert (k as real) * m == m * (k as real);
  }

  /** Shifting back by `k` periods is the opposite of shifting forward by them. */
  lemma WholePeriodsNegate(k: int, m: real)
    ensures Shifted(0.0, k, m) == -Shifted(0.0, -k, m)
  {
  }

  lemma FloorBounds(x: real, m: real)
    requires m > 0.0
    ensures m * ((x / m).Floor as real) <= x < m * ((x / m).Floor as real) + m
    ensures 0.0 <= x < m ==> (x / m).Floor == 0
  {
    var f := (x / m).Floor as real;
    var t := x / m;
    assert f <= t < f + 1.0;
    assert t * m == x;
    calc { m * f; <= { MulLe(m, f, t); } m * t; == x; }
    calc { x; == m * t; < { MulLt(m, t, f + 1.0); } m * (f + 1.0); == m * f + m; }
    if 0.0 <= x < m {
      assert 0.0 <= t < 1.0 by {
        assert 0.0 <= t by { DivNonNeg(x, m); }
        assert t < 1.0 by { DivBelowOne(x, m); }
      }
    }
  }

  lemma MulLe(m: real, a: real, b: real)
    requires m > 0.0 && a <= b
    ensures m * a <= m * b
  {
  }

  lemma MulLt(m: real, a: real, b: real)
    requires m > 0.0 && a < b
    ensures m * a < m * b
  {
  }

  lemma DivNonNeg(x: real, m: real)
    requires m > 0.0 && 0.0 <= x
    ensures 0.0 <= x / m
  {
  }

  lemma DivBelowOne(x: real, m: real)
    requires m > 0.0 && x < m
    ensures x / m < 1.0
  {
  }

  /** `s_max if s_max > 1e-6 else 1.0`: a length used as a divisor, replaced by 1 when it
      is (nearly) zero. */
  function SafeSpan(t: real): (r: real)
    ensures r > 0.0
    ensures t > 0.000001 ==> r == t
    ensures t <= 0.000001 ==> r == 1.0
  {
    if t > 0.000001 then t else 1.0
  }

  /** The `else` fallback of the velocity block: the initial profile `cs_vel_initial` (foreign)
      at each new arc length taken modulo the loop total. */
  function InitialVelocities(initial: real -> real, newS: seq<real>, sMax: real): (r: seq<real>)
    ensures |r| == |newS|
  {
    seq(|newS|, i requires 0 <= i < |newS| => initial(PyMod(newS[i], SafeSpan(sMax))))
  }

  /** The fallback reads the initial profile within its first period only, and a new arc
      length already inside that period is read as it is. */
  lemma InitialVelocitiesInPeriod(initial: real -> real, newS: seq<real>, sMax: real, i: nat)
    requires i < |newS|
    ensures exists x: real, n: int ::
      && 0.0 <= x < SafeSpan(sMax) && Shifted(x, n, SafeSpan(sMax)) == newS[i]
      && InitialVelocities(initial, newS, sMax)[i] == initial(x)
    ensures 0.0 <= newS[i] < SafeSpan(sMax) ==>
      InitialVelocities(initial, newS, sMax)[i] == initial(newS[i])
  {
    var x := PyMod(newS[i], SafeSpan(sMax));
    var n :| Shifted(x, n, SafeSpan(sMax)) == newS[i];
    assert InitialVelocities(initial, newS, sMax)[i] == initial(x);
  }

  /** The old profile's periodic linear interpolant `interp1d(extended_s, extended_v)` read at
      `q`: the distinct old arc lengths with the velocity first recorded at each, wrapped one
      knot past either end. Defined when there are at least two distinct old arc lengths. */
  function Interpolant(oldS: seq<real>, oldV: seq<real>, q: real): real
    requires |oldS| == |oldV| && NonDecreasing(oldS) && |FirstOccurrences(oldS)| > 1
  {
    var idx := FirstOccurrences(oldS);
    var u := Pick(oldS, idx);
    UniqueSorted(oldS);
    WrapDomainIncreasing(u, u[|u| - 1]);
    Interp(WrapDomain(u, u[|u| - 1]), WrapValues(Pick(oldV, idx)), q)
  }

  /** The raw new velocities, before clamping and closing, given the positions `queries` at
      which the old interpolant is read for each new control point (`s_to_sample_at`). */
  function RawVelocities(oldS: seq<real>, oldV: seq<real>, queries: seq<real>, fallback: seq<real>)
    : (r: seq<real>)
    requires |oldS| == |oldV| && NonDecreasing(oldS) && |fallback| == |queries|
    ensures |r| == |queries|
    ensures |oldS| > 1 && oldS[|oldS| - 1] > 0.000001 && |FirstOccurrences(oldS)| > 1 ==>
      forall i :: 0 <= i < |queries| ==> r[i] == Interpolant(oldS, oldV, queries[i])
    ensures |oldS| > 1 && 0.0 < oldS[|oldS| - 1] <= 0.000001 ==>
      forall i :: 0 <= i < |queries| ==> r[i] == oldV[0]
    ensures |oldS| > 1 && 0.0 < oldS[|oldS| - 1] && |FirstOccurrences(oldS)| <= 1 ==>
      forall i :: 0 <= i < |queries| ==> r[i] == oldV[0]
    ensures |oldS| == 1 ==> forall i :: 0 <= i < |queries| ==> r[i] == oldV[0]
    ensures |oldS| != 1 && !(|oldS| > 1 && oldS[|oldS| - 1] > 0.0) ==> r == fallback
  {
    if |oldS| > 1 && oldS[|oldS| - 1] > 0.0 then
      var idx := FirstOccurrences(oldS);
      var u := Pick(oldS, idx);
      if |u| > 1 then
        if oldS[|oldS| - 1] > 0.000001 then
          seq(|queries|, i requires 0 <= i < |queries| => Interpolant(oldS, oldV, queries[i]))
        else Fill(|queries|, oldV[0])
      else Fill(|queries|, Pick(oldV, idx)[0])
    else if |oldS| == 1 then Fill(|queries|, oldV[0])
    else fallback
  }

  /** `interp_func(s_to_sample_at)`: the interpolant read at every query. */
  function InterpolateAll(xs: seq<real>, ys: seq<real>, queries: seq<real>): (r: seq<real>)
    requires |xs| == |ys| && |xs| >= 2 && StrictlyIncreasing(xs)
    ensures |r| == |queries|
    ensures forall i :: 0 <= i < |queries| ==> r[i] == Interp(xs, ys, queries[i])
  {
    seq(|queries|, i requires 0 <= i < |queries| => Interp(xs, ys, queries[i]))
  }

  /** `np.maximum(0, raw)` followed by `new_v[-1] = new_v[0]`. */
  function Finish(raw: seq<real>): (v: seq<real>)
    ensures |v| == |raw| && NonNegative(v) && Periodic(v)
    ensures |raw| > 0 ==> v[..|raw| - 1] == ClampAll(raw)[..|raw| - 1]
  {
    ClosePeriodicNonNegative(ClampAll(raw));
    ClosePeriodic(ClampAll(raw))
  }

  /** The query positions as the editor computes them: each new arc length divided by the new
      loop total `s_max`, which includes the closing edge, then scaled by the old table's last
      entry, which does not. */
  function QueriesAsWritten(oldS: seq<real>, newS: seq<real>, sMax: real): (q: seq<real>)
    requires |oldS| > 0
    ensures |q| == |newS|
    ensures forall i :: 0 <= i < |newS| ==> q[i] * SafeSpan(sMax) == newS[i] * oldS[|oldS| - 1]
  {
    seq(|newS|, i requires 0 <= i < |newS| => newS[i] / SafeSpan(sMax) * oldS[|oldS| - 1])
  }

  /** The query positions with both spans measured the same way: each new arc length as a
      fraction of the new table's last entry, scaled by the old table's last entry. The last
      new control point then reads the last old one. */
  function Queries(oldS: seq<real>, newS: seq<real>): (q: seq<real>)
    requires |oldS| > 0
    ensures |q| == |newS|
    ensures forall i :: 0 <= i < |newS| ==>
      q[i] * SafeSpan(newS[|newS| - 1]) == newS[i] * oldS[|oldS| - 1]
    ensures |newS| > 0 && newS[|newS| - 1] > 0.000001 ==> q[|newS| - 1] == oldS[|oldS| - 1]
  {
    seq(|newS|, i requires 0 <= i < |newS| =>
      newS[i] / SafeSpan(newS[|newS| - 1]) * oldS[|oldS| - 1])
  }

  /** The velocity block of `update_spline` as written, with the query scale of
      `QueriesAsWritten`. */
  function ReparametrizeAsWritten(oldS: seq<real>, oldV: seq<real>, newS: seq<real>, sMax: real,
                                  initial: real -> real): (v: seq<real>)
    requires |oldS| == |oldV| && NonDecreasing(oldS)
    ensures |v| == |newS| && NonNegative(v) && Periodic(v)
    ensures |oldS| == 1 ==> forall i :: 0 <= i < |v| ==> v[i] == Max0(oldV[0])
    ensures |oldS| > 1 && 0.0 < oldS[|oldS| - 1] <= 0.000001 ==>
      forall i :: 0 <= i < |v| ==> v[i] == Max0(oldV[0])
  {
    var queries := if |oldS| > 0 then QueriesAsWritten(oldS, newS, sMax) else newS;
    Finish(RawVelocities(oldS, oldV, queries, InitialVelocities(initial, newS, sMax)))
  }

  /** The velocity block of `update_spline` with the query scale of `Queries`. */
  function Reparametrize(oldS: seq<real>, oldV: seq<real>, newS: seq<real>, sMax: real,
                         initial: real -> real): (v: seq<real>)
    requires |oldS| == |oldV| && NonDecreasing(oldS)
    ensures |v| == |newS| && NonNegative(v) && Periodic(v)
    ensures |oldS| == 1 ==> forall i :: 0 <= i < |v| ==> v[i] == Max0(oldV[0])
    ensures |oldS| > 1 && 0.0 < oldS[|oldS| - 1] <= 0.000001 ==>
      forall i :: 0 <= i < |v| ==> v[i] == Max0(oldV[0])
  {
    var queries := if |oldS| > 0 then Queries(oldS, newS) else newS;
    Finish(RawVelocities(oldS, oldV, queries, InitialVelocities(initial, newS, sMax)))
  }

  /** Reading the interpolant at a run of its own knots gives back the values at those knots. */
  lemma InterpolateAtKnots(xs: seq<real>, ys: seq<real>, lo: nat, hi: nat)
    requires |xs| == |ys| && |xs| >= 2 && StrictlyIncreasing(xs) && lo <= hi <= |xs|
    ensures InterpolateAll(xs, ys, xs[lo..hi]) == ys[lo..hi]
  {
    var r := InterpolateAll(xs, ys, xs[lo..hi]);
    forall i | 0 <= i < hi - lo ensures r[i] == ys[lo..hi][i] {
      assert xs[lo..hi][i] == xs[lo + i];
      InterpAtKnot(xs, ys, lo + i);
    }
  }

  /** On strictly increasing old arc lengths every old knot is kept, and the raw velocities are
      the wrapped table's interpolant read at each query. */
  lemma RawOfIncreasing(s: seq<real>, v: seq<real>, q: seq<real>, fallback: seq<real>)
    requires |s| == |v| && |s| > 1 && StrictlyIncreasing(s) && s[|s| - 1] > 0.000001
    requires |fallback| == |q|
    ensures StrictlyIncreasing(WrapDomain(s, s[|s| - 1]))
    ensures RawVelocities(s, v, q, fallback) == InterpolateAll(WrapDomain(s, s[|s| - 1]), WrapValues(v), q)
  {
    FirstOccurrencesOfIncreasing(s);
    var idx := FirstOccurrences(s);
    assert Pick(s, idx) == s;
    assert Pick(v, idx) == v;
    WrapDomainIncreasing(s, s[|s| - 1]);
  }

  /** Clamping and closing: every entry is the clamped raw entry, except the closing one, which
      repeats the first. */
  lemma FinishAt(raw: seq<real>, i: nat)
    requires i < |raw|
    ensures Finish(raw)[i] == Max0(raw[if i + 1 == |raw| then 0 else i])
  {
    var v := Finish(raw);
    if i + 1 < |raw| {
      assert v[..|raw| - 1][i] == ClampAll(raw)[..|raw| - 1][i];
    } else if |raw| > 1 {
      assert v[..|raw| - 1][0] == ClampAll(raw)[..|raw| - 1][0];
    }
  }

  /** Each reparametrized velocity, entry by entry: the clamped reading of the old interpolant
      at the rescaled position when the old profile has two distinct arc lengths and a positive
      total, the clamped initial profile at the new arc length modulo the loop total when there
      is no old profile to read, and, for the closing entry, the first entry's value. */
  lemma ReparametrizeValues(oldS: seq<real>, oldV: seq<real>, newS: seq<real>, sMax: real,
                            initial: real -> real, i: nat)
    requires |oldS| == |oldV| && NonDecreasing(oldS) && i < |newS|
    ensures var j := if i + 1 == |newS| then 0 else i;
      |oldS| > 1 && oldS[|oldS| - 1] > 0.000001 && |FirstOccurrences(oldS)| > 1 ==>
      Reparametrize(oldS, oldV, newS, sMax, initial)[i] ==
        Max0(Interpolant(oldS, oldV, Queries(oldS, newS)[j]))
    ensures var j := if i + 1 == |newS| then 0 else i;
      |oldS| != 1 && !(|oldS| > 1 && oldS[|oldS| - 1] > 0.0) ==>
      Reparametrize(oldS, oldV, newS, sMax, initial)[i] == Max0(InitialVelocities(initial, newS, sMax)[j])
  {
    var queries := if |oldS| > 0 then Queries(oldS, newS) else newS;
    FinishAt(RawVelocities(oldS, oldV, queries, InitialVelocities(initial, newS, sMax)), i);
  }

  /** The code as written, entry by entry: as `ReparametrizeValues`, with the queries scaled by
      the loop total. */
  lemma ReparametrizeAsWrittenValues(oldS: seq<real>, oldV: seq<real>, newS: seq<real>, sMax: real,
                                     initial: real -> real, i: nat)
    requires |oldS| == |oldV| && NonDecreasing(oldS) && i < |newS|
    ensures var j := if i + 1 == |newS| then 0 else i;
      |oldS| > 1 && oldS[|oldS| - 1] > 0.000001 && |FirstOccurrences(oldS)| > 1 ==>
      ReparametrizeAsWritten(oldS, oldV, newS, sMax, initial)[i] ==
        Max0(Interpolant(oldS, oldV, QueriesAsWritten(oldS, newS, sMax)[j]))
    ensures var j := if i + 1 == |newS| then 0 else i;
      |oldS| != 1 && !(|oldS| > 1 && oldS[|oldS| - 1] > 0.0) ==>
      ReparametrizeAsWritten(oldS, oldV, newS, sMax, initial)[i] ==
        Max0(InitialVelocities(initial, newS, sMax)[j])
  {
    var queries := if |oldS| > 0 then QueriesAsWritten(oldS, newS, sMax) else newS;
    FinishAt(RawVelocities(oldS, oldV, queries, InitialVelocities(initial, newS, sMax)), i);
  }

  /** Rescaling a table onto itself leaves every arc length where it is. */
  lemma QueriesOfSameTable(s: seq<real>)
    requires |s| > 0 && s[|s| - 1] > 0.000001
    ensures Queries(s, s) == s
  {
    var q := Queries(s, s);
    forall i | 0 <= i < |s| ensures q[i] == s[i] {
      assert q[i] * s[|s| - 1] == s[i] * s[|s| - 1];
    }
  }

  /** Clamping and closing change nothing on velocities that are already non-negative and
      periodic. */
  lemma FinishFixes(v: seq<real>)
    requires NonNegative(v) && Periodic(v)
    ensures Finish(v) == v
  {
    assert ClampAll(v) == v;
    ClosePeriodicFixes(v);
  }

  /** Reparametrizing onto the same strictly increasing arc lengths gives back non-negative
      periodic velocities unchanged, whatever the loop total. */
  lemma ReparametrizeIdentity(s: seq<real>, v: seq<real>, sMax: real, initial: real -> real)
    requires |s| == |v| && |s| > 1 && StrictlyIncreasing(s) && s[|s| - 1] > 0.000001
    requires NonNegative(v) && Periodic(v)
    ensures Reparametrize(s, v, s, sMax, initial) == v
  {
    QueriesOfSameTable(s);
    RawOfIncreasing(s, v, s, InitialVelocities(initial, s, sMax));
    WrapDomainIncreasing(s, s[|s| - 1]);
    InterpolateAtKnots(WrapDomain(s, s[|s| - 1]), WrapValues(v), 1, |s| + 1);
    assert RawVelocities(s, v, s, InitialVelocities(initial, s, sMax)) == v;
    FinishFixes(v);
  }

  /** The unit square `(0, 0), (1, 0), (1, 1), (0, 1)`: its arc-length table. */
  predicate IsSquareTable(s: seq<real>) {
    s == [0.0, 1.0, 2.0, 3.0]
  }

  /** A periodic velocity profile on the unit square's control points. */
  predicate IsSquareVelocities(v: seq<real>) {
    v == [1.0, 2.0, 3.0, 1.0]
  }

  lemma SquareWrap(s: seq<real>, v: seq<real>)
    requires IsSquareTable(s) && IsSquareVelocities(v)
    ensures WrapDomain(s, 3.0) == [-1.0, 0.0, 1.0, 2.0, 3.0, 4.0]
    ensures WrapValues(v) == [1.0, 1.0, 2.0, 3.0, 1.0, 1.0]
    ensures StrictlyIncreasing(WrapDomain(s, 3.0))
  {
    WrapDomainIncreasing(s, 3.0);
  }

  lemma SquareInterp(dom: seq<real>, vals: seq<real>, q: real, lo: nat, expected: real)
    requires dom == [-1.0, 0.0, 1.0, 2.0, 3.0, 4.0] && vals == [1.0, 1.0, 2.0, 3.0, 1.0, 1.0]
    requires StrictlyIncreasing(dom)
    requires lo + 1 < |dom| && dom[lo] < q <= dom[lo + 1]
    requires expected == (vals[lo + 1] - vals[lo]) * (q - dom[lo]) + vals[lo]
    ensures Interp(dom, vals, q) == expected
  {
    assert Bracket(dom, q) == lo;
    assert dom[lo + 1] - dom[lo] == 1.0;
  }

  lemma SquareReadings(dom: seq<real>, vals: seq<real>, q: seq<real>)
    requires dom == [-1.0, 0.0, 1.0, 2.0, 3.0, 4.0] && vals == [1.0, 1.0, 2.0, 3.0, 1.0, 1.0]
    requires StrictlyIncreasing(dom) && q == [0.0, 0.75, 1.5, 2.25]
    ensures InterpolateAll(dom, vals, q) == [1.0, 1.75, 2.5, 2.5]
  {
    SquareInterp(dom, vals, q[0], 0, 1.0);
    SquareInterp(dom, vals, q[1], 1, 1.75);
    SquareInterp(dom, vals, q[2], 2, 2.5);
    SquareInterp(dom, vals, q[3], 3, 2.5);
  }

  lemma SquareRaw(s: seq<real>, v: seq<real>, q: seq<real>, fallback: seq<real>)
    requires IsSquareTable(s) && IsSquareVelocities(v)
    requires q == [0.0, 0.75, 1.5, 2.25] && |fallback| == 4
    ensures RawVelocities(s, v, q, fallback) == [1.0, 1.75, 2.5, 2.5]
  {
    SquareWrap(s, v);
    RawOfIncreasing(s, v, q, fallback);
    SquareReadings(WrapDomain(s, 3.0), WrapValues(v), q);
  }

  /** As written, reparametrizing the unit square's table (loop total 4) onto itself does not
      give the velocities back: the queries land at `0, 0.75, 1.5, 2.25` instead of
      `0, 1, 2, 3`. */
  lemma AsWrittenDrifts(s: seq<real>, v: seq<real>, initial: real -> real)
    requires IsSquareTable(s) && IsSquareVelocities(v)
    ensures ReparametrizeAsWritten(s, v, s, 4.0, initial) == [1.0, 1.75, 2.5, 1.0]
    ensures ReparametrizeAsWritten(s, v, s, 4.0, initial) != v
  {
    var q := QueriesAsWritten(s, s, 4.0);
    assert q == [0.0, 0.75, 1.5, 2.25];
    var raw := RawVelocities(s, v, q, InitialVelocities(initial, s, 4.0));
    SquareRaw(s, v, q, InitialVelocities(initial, s, 4.0));
    SquareFinish(raw);
  }

  lemma SquareFinish(raw: seq<real>)
    requires raw == [1.0, 1.75, 2.5, 2.5]
    ensures Finish(raw) == [1.0, 1.75, 2.5, 1.0]
  {
    assert ClampAll(raw) == raw;
  }

  /** With the query scale fixed, the same edit leaves the velocities as they were. */
  lemma CorrectedKeepsSquare(s: seq<real>, v: seq<real>, initial: real -> real)
    requires IsSquareTable(s) && IsSquareVelocities(v)
    ensures Reparametrize(s, v, s, 4.0, initial) == v
  {
    ReparametrizeIdentity(s, v, 4.0, initial);
  }

  /** The other repair of the query scale: keep the new loop total `s_max` as divisor and
      multiply by the loop total before the edit instead of `old_s[-1]`. An unchanged loop is
      queried at its own arc lengths here too. */
  function QueriesByLoopTotal(newS: seq<real>, oldTotal: real, newTotal: real): (q: seq<real>)
    ensures |q| == |newS|
    ensures oldTotal == newTotal > 0.000001 ==> q == newS
  {
    var q := seq(|newS|, i requires 0 <= i < |newS| => newS[i] / SafeSpan(newTotal) * oldTotal);
    if oldTotal == newTotal > 0.000001 then
      assert q == newS by {
        assert SafeSpan(newTotal) == oldTotal;
        forall i | 0 <= i < |newS| ensures q[i] == newS[i] {
          CancelScale(newS[i], oldTotal);
        }
      }
      q
    else q
  }

  lemma CancelScale(x: real, t: real)
    requires t > 0.0
    ensures x / t * t == x
  {
  }

  /** The velocity block with the loop-total repair of the query scale. */
  function ReparametrizeByLoopTotal(oldS: seq<real>, oldV: seq<real>, oldTotal: real, newS: seq<real>,
                                    newTotal: real, initial: real -> real): (v: seq<real>)
    requires |oldS| == |oldV| && NonDecreasing(oldS)
    ensures |v| == |newS| && NonNegative(v) && Periodic(v)
    ensures |oldS| == 1 ==> forall i :: 0 <= i < |v| ==> v[i] == Max0(oldV[0])
    ensures |oldS| > 1 && 0.0 < oldS[|oldS| - 1] <= 0.000001 ==>
      forall i :: 0 <= i < |v| ==> v[i] == Max0(oldV[0])
  {
    var queries := if |oldS| > 0 then QueriesByLoopTotal(newS, oldTotal, newTotal) else newS;
    Finish(RawVelocities(oldS, oldV, queries, InitialVelocities(initial, newS, newTotal)))
  }

  /** The two repairs agree on an unchanged loop but not after an edit: stretching the unit
      square (table `[0, 1, 2, 3]`, loop total 4, velocities `[1, 2, 3, 1]`) into the rectangle
      `(0, 0), (2, 0), (2, 1), (0, 1)` (table `[0, 2, 3, 5]`, loop total 6) gives
      `[1, 2.2, 2.8, 1]` end to end and `[1, 7/3, 3, 1]` by loop totals. */
  lemma RepairsDisagree(s: seq<real>, v: seq<real>, newS: seq<real>, initial: real -> real)
    requires IsSquareTable(s) && IsSquareVelocities(v) && newS == [0.0, 2.0, 3.0, 5.0]
    ensures Reparametrize(s, v, newS, 6.0, initial) == [1.0, 2.2, 2.8, 1.0]
    ensures ReparametrizeByLoopTotal(s, v, 4.0, newS, 6.0, initial) == [1.0, 7.0 / 3.0, 3.0, 1.0]
  {
    RectangleEndToEnd(s, v, newS, initial);
    RectangleByLoopTotal(s, v, newS, initial);
  }

  lemma RectangleEndToEnd(s: seq<real>, v: seq<real>, newS: seq<real>, initial: real -> real)
    requires IsSquareTable(s) && IsSquareVelocities(v) && newS == [0.0, 2.0, 3.0, 5.0]
    ensures Reparametrize(s, v, newS, 6.0, initial) == [1.0, 2.2, 2.8, 1.0]
  {
    var fallback := InitialVelocities(initial, newS, 6.0);
    var q := Queries(s, newS);
    RectangleQueries(s, newS, q);
    SquareWrap(s, v);
    RawOfIncreasing(s, v, q, fallback);
    RectangleReadings(WrapDomain(s, 3.0), WrapValues(v), q, [1.0, 2.2, 2.8, 1.0]);
    RectangleFinish([1.0, 2.2, 2.8, 1.0]);
  }

  lemma RectangleByLoopTotal(s: seq<real>, v: seq<real>, newS: seq<real>, initial: real -> real)
    requires IsSquareTable(s) && IsSquareVelocities(v) && newS == [0.0, 2.0, 3.0, 5.0]
    ensures ReparametrizeByLoopTotal(s, v, 4.0, newS, 6.0, initial) == [1.0, 7.0 / 3.0, 3.0, 1.0]
  {
    var fallback := InitialVelocities(initial, newS, 6.0);
    var q := QueriesByLoopTotal(newS, 4.0, 6.0);
    RectangleQueriesByLoopTotal(newS, q);
    SquareWrap(s, v);
    RawOfIncreasing(s, v, q, fallback);
    RectangleReadings(WrapDomain(s, 3.0), WrapValues(v), q, [1.0, 7.0 / 3.0, 3.0, 1.0]);
    RectangleFinish([1.0, 7.0 / 3.0, 3.0, 1.0]);
  }

  lemma RectangleQueries(s: seq<real>, newS: seq<real>, q: seq<real>)
    requires IsSquareTable(s) && newS == [0.0, 2.0, 3.0, 5.0] && q == Queries(s, newS)
    ensures q == [0.0, 1.2, 1.8, 3.0]
  {
    assert SafeSpan(newS[3]) == 5.0;
    assert q[1] == 2.0 / 5.0 * 3.0 == 1.2;
    assert q[2] == 3.0 / 5.0 * 3.0 == 1.8;
  }

  lemma RectangleQueriesByLoopTotal(newS: seq<real>, q: seq<real>)
    requires newS == [0.0, 2.0, 3.0, 5.0] && q == QueriesByLoopTotal(newS, 4.0, 6.0)
    ensures q == [0.0, 4.0 / 3.0, 2.0, 10.0 / 3.0]
  {
    assert SafeSpan(6.0) == 6.0;
    assert q[1] == 2.0 / 6.0 * 4.0 == 4.0 / 3.0;
    assert q[2] == 3.0 / 6.0 * 4.0 == 2.0;
    assert q[3] == 5.0 / 6.0 * 4.0 == 10.0 / 3.0;
  }

  lemma RectangleFinish(raw: seq<real>)
    requires |raw| == 4 && raw[0] == raw[3] == 1.0 && 0.0 <= raw[1] && 0.0 <= raw[2]
    ensures Finish(raw) == raw
  {
    FinishFixes(raw);
  }

  /** The unit square's interpolant read at four queries: the first at 0, the middle two in
      the knot interval `(1, 2]`, where it reads `q + 1`, and the last at 3 or beyond it, where
      the wrapped table reads the first velocity again. */
  lemma RectangleReadings(dom: seq<real>, vals: seq<real>, q: seq<real>, raw: seq<real>)
    requires dom == [-1.0, 0.0, 1.0, 2.0, 3.0, 4.0] && vals == [1.0, 1.0, 2.0, 3.0, 1.0, 1.0]
    requires StrictlyIncreasing(dom) && |q| == 4
    requires q[0] == 0.0 && 1.0 < q[1] <= 2.0 && 1.0 < q[2] <= 2.0
    requires q[3] == 3.0 || 3.0 < q[3] <= 4.0
    requires raw == [1.0, q[1] + 1.0, q[2] + 1.0, 1.0]
    ensures InterpolateAll(dom, vals, q) == raw
  {
    SquareInterp(dom, vals, q[0], 0, 1.0);
    SquareInterp(dom, vals, q[1], 2, raw[1]);
    SquareInterp(dom, vals, q[2], 2, raw[2]);
    if q[3] == 3.0 {
      SquareInterp(dom, vals, q[3], 3, 1.0);
    } else {
      SquareInterp(dom, vals, q[3], 4, 1.0);
    }
  }

  /** The velocity block of `update_spline` for the edited control points `ctrl`: the new
      arc-length table, the carried-over velocities, and the profile fitted through them; with
      no control points, an empty scatter and the zero profile. */
  function UpdateVelocity(h: Hypot, fit: VelocityFit, initial: real -> real, ctrl: seq<Point>, prev: Profile)
    : (r: Profile)
    requires |prev.s| == |prev.v| && NonDecreasing(prev.s)
    ensures r.s == ArcLengths(h, ctrl) && |r.v| == |r.s|
    ensures NonDecreasing(r.s) && NonNegative(r.v) && Periodic(r.v)
    ensures |ctrl| == 0 ==> r == Profile([], [], Zero)
    ensures |ctrl| == 1 ==> forall x :: Eval(r.source, x) == Some(r.v[0])
    ensures |ctrl| > 1 ==> r.source == Spline(fit(r.s, r.v))
  {
    if |ctrl| == 0 then Profile([], [], Zero)
    else
      var newS := ArcLengths(h, ctrl);
      var v := Reparametrize(prev.s, prev.v, newS, LoopLength(h, ctrl), initial);
      ClosePeriodicFixes(v);
      Profile(newS, UpdatePositions(v, true), SourceFor(fit, newS, v))
  }

  /** Re-running the update on unchanged control points with distinct consecutive positions
      keeps a non-negative periodic velocity profile exactly as it was. */
  lemma UpdateUnchangedKeepsVelocities(h: Hypot, fit: VelocityFit, initial: real -> real,
                                        ctrl: seq<Point>, prev: Profile)
    requires |ctrl| > 1 && prev.s == ArcLengths(h, ctrl) && |prev.v| == |ctrl|
    requires StrictlyIncreasing(prev.s) && prev.s[|ctrl| - 1] > 0.000001
    requires NonNegative(prev.v) && Periodic(prev.v)
    ensures UpdateVelocity(h, fit, initial, ctrl, prev).v == prev.v
  {
    ReparametrizeIdentity(prev.s, prev.v, LoopLength(h, ctrl), initial);
  }
}

=== FILE: sampling.dfy ===
/** `spline_sample_closed` (graphic_editor/application.py): sampling the closed path and its
    velocities. The joint periodic spline through positions and velocities is foreign to the
    model; what is modelled is how its inputs are prepared and its output is shaped: the
    degenerate branches, the conditional closing of the loop, the clamping of control and
    sampled velocities, the repeated first sample, and the arc lengths of the samples. */
module Sampling {
  import opened Outcome
  import opened RealSeq
  import opened Geometry
  import opened ArcLength
  import opened Velocity

  /** One row `(x, y, v)` of the control table that the joint spline passes through. */
  datatype Knot = Knot(x: real, y: real, v: real)

  /** `CubicSpline(t, y_ctrl, bc_type="periodic", axis=0)`, foreign to the model: a curve from
      the parameter in `[0, 1)` to a position and a velocity. */
  type PathFit = (seq<real>, seq<Knot>) -> (real -> Knot)

  /** The four arrays `xs, ys, vs, S` that `spline_sample_closed` returns. */
  datatype Samples = Samples(xs: seq<real>, ys: seq<real>, vs: seq<real>, s: seq<real>)

  /** `pts_for_spline`: the control points, with the first appended unless the last is already
      `np.allclose` to it. */
  function LoopPoints(ctrl: seq<Point>): (r: seq<Point>)
    requires |ctrl| > 0
    ensures |r| == if AllClose(ctrl[0], ctrl[|ctrl| - 1]) then |ctrl| else |ctrl| + 1
    ensures r[..|ctrl|] == ctrl
    ensures AllClose(r[0], r[|r| - 1])
  {
    if AllClose(ctrl[0], ctrl[|ctrl| - 1]) then ctrl else ctrl + [ctrl[0]]
  }

  /** `cs_vel(0.0)` inside `try`/`except`: a raising evaluation reads as 0. */
  function StartVelocity(src: VelocitySource): (r: real)
    ensures src.Constant? ==> r == src.value
    ensures src.Zero? ==> r == 0.0
    ensures src.Spline? && src.curve(0.0).Some? ==> r == src.curve(0.0).value
    ensures src.Spline? && src.curve(0.0).None? ==> r == 0.0
  {
    match Eval(src, 0.0)
    case None => 0.0
    case Some(v) => v
  }

  /** `np.concatenate([np.full(n, c), np.full(n, c)[:1]])`. */
  function ClosedFill(n: nat, c: real): (r: seq<real>)
    ensures |r| == (if n == 0 then 0 else n + 1)
    ensures forall i :: 0 <= i < |r| ==> r[i] == c
  {
    Closed(Fill(n, c))
  }

  /** The output of a degenerate path: `num` copies of one point at arc length 0 with one
      clamped velocity, closed by repeating the first entry. */
  function Flat(num: nat, p: Point, v0: real): (r: Samples)
    ensures |r.xs| == |r.ys| == |r.vs| == |r.s| == (if num == 0 then 0 else num + 1)
    ensures forall i :: 0 <= i < |r.xs| ==> r.xs[i] == p.x && r.ys[i] == p.y
    ensures forall i :: 0 <= i < |r.vs| ==> r.vs[i] == Max0(v0)
    ensures forall i :: 0 <= i < |r.s| ==> r.s[i] == 0.0
  {
    Samples(ClosedFill(num, p.x), ClosedFill(num, p.y), ClosedFill(num, Max0(v0)), ClosedFill(num, 0.0))
  }

  /** `cs_vel(s_ctrl_path)` on a whole array: it raises if any single evaluation does. */
  function EvalAll(src: VelocitySource, xs: seq<real>): (r: Option<seq<real>>)
    ensures r.Some? <==> forall i :: 0 <= i < |xs| ==> Eval(src, xs[i]).Some?
    ensures r.Some? ==> |r.value| == |xs|
    ensures r.Some? ==> forall i :: 0 <= i < |xs| ==> r.value[i] == Eval(src, xs[i]).value
  {
    if |xs| == 0 then Some([])
    else
      match Eval(src, xs[|xs| - 1])
      case None => None
      case Some(last) =>
        match EvalAll(src, xs[..|xs| - 1])
        case None => None
        case Some(front) => Some(front + [last])
  }

  /** A constant or zero profile never raises. */
  lemma EvalAllTotal(src: VelocitySource, xs: seq<real>)
    requires !src.Spline?
    ensures EvalAll(src, xs).Some?
  {
  }

  /** `np.linspace(0, 1, num, endpoint=False)`: `num` evenly spaced parameters in `[0, 1)`. */
  function Linspace(num: nat): (ts: seq<real>)
    ensures |ts| == num
    ensures num > 0 ==> ts[0] == 0.0
    ensures forall i :: 0 <= i < num ==> 0.0 <= ts[i] < 1.0
    ensures StrictlyIncreasing(ts)
  {
    var ts := seq(num, i requires 0 <= i < num => (i as real) / (num as real));
    LinspaceIncreasing(ts, num);
    ts
  }

  lemma LinspaceIncreasing(ts: seq<real>, num: nat)
    requires |ts| == num && forall i :: 0 <= i < num ==> ts[i] == (i as real) / (num as real)
    ensures forall i :: 0 <= i < num ==> 0.0 <= ts[i] < 1.0
    ensures StrictlyIncreasing(ts)
  {
    forall i, j | 0 <= i < j < num ensures ts[i] < ts[j] {
      DivStrict(i as real, j as real, num as real);
    }
    forall i | 0 <= i < num ensures 0.0 <= ts[i] < 1.0 {
      DivUnit(i as real, num as real);
      DivStrict(i as real, num as real, num as real);
    }
  }

  lemma DivStrict(a: real, b: real, total: real)
    requires total > 0.0 && a < b
    ensures a / total < b / total
  {
  }

  /** The sampled polygon: the points `(xs[i], ys[i])`. */
  function Zip(xs: seq<real>, ys: seq<real>): (r: seq<Point>)
    requires |xs| == |ys|
    ensures |r| == |xs| && forall i :: 0 <= i < |xs| ==> r[i] == Point(xs[i], ys[i])
  {
    seq(|xs|, i requires 0 <= i < |xs| => Point(xs[i], ys[i]))
  }

  /** The chord-length parameter `t_path` of the closed control polygon, and its total. */
  function PathParams(h: Hypot, pts: seq<Point>): (t: seq<real>)
    requires |pts| > 0
    ensures t == ArcLengths(h, pts)
  {
    ArcLengthsOpenChords(h, pts);
    [0.0] + CumSum(Chords(h, pts))
  }

  /** The total chord length of the closed control polygon; below `1e-9` the path counts as a
      single point. */
  function PathTotal(h: Hypot, ctrl: seq<Point>): (r: real)
    requires |ctrl| > 0
    ensures 0.0 <= r
    ensures |ctrl| == 1 ==> r == 0.0
    ensures AllClose(ctrl[0], ctrl[|ctrl| - 1]) ==> r == ArcLengths(h, ctrl)[|ctrl| - 1]
    ensures !AllClose(ctrl[0], ctrl[|ctrl| - 1]) ==> |ctrl| > 1 && r == LoopLength(h, ctrl)
  {
    LoopPointsTotal(h, ctrl);
    PathParams(h, LoopPoints(ctrl))[|LoopPoints(ctrl)| - 1]
  }

  /** The closed polygon's table ends at the open table's end when the polygon already closes,
      and at the loop total when a closing point had to be appended. */
  lemma LoopPointsTotal(h: Hypot, ctrl: seq<Point>)
    requires |ctrl| > 0
    ensures var pts := LoopPoints(ctrl);
      AllClose(ctrl[0], ctrl[|ctrl| - 1]) ==> ArcLengths(h, pts)[|pts| - 1] == ArcLengths(h, ctrl)[|ctrl| - 1]
    ensures var pts := LoopPoints(ctrl);
      !AllClose(ctrl[0], ctrl[|ctrl| - 1]) ==> |ctrl| > 1 && ArcLengths(h, pts)[|pts| - 1] == LoopLength(h, ctrl)
  {
    var pts := LoopPoints(ctrl);
    AllCloseReflexive(ctrl[0]);
    if !AllClose(ctrl[0], ctrl[|ctrl| - 1]) {
      var n := |ctrl|;
      assert pts == Closed(ctrl);
      var d := Chords(h, pts);
      ArcLengthsOpenChords(h, pts);
      assert ArcLengths(h, pts)[n] == CumSum(d)[n - 1] == Sum(d[..n]);
      assert d[..n] == d;
    }
  }

  predicate Degenerate(h: Hypot, ctrl: seq<Point>) {
    |ctrl| == 1 || (|ctrl| > 1 && PathTotal(h, ctrl) < 0.000000001)
  }

  /** `vs`: the sampled velocities clamped at zero and closed by repeating the first. */
  function ClosedVelocities(vs: seq<real>): (r: seq<real>)
    ensures |r| == (if |vs| == 0 then 0 else |vs| + 1)
    ensures NonNegative(r)
    ensures forall i :: 0 <= i < |vs| ==> r[i] == Max0(vs[i])
    ensures |vs| > 0 ==> r[|vs|] == r[0]
  {
    Closed(ClampAll(vs))
  }

  /** `S`: the arc lengths of the closed sampled polygon; `[0]` when nothing was sampled. */
  function SampleLengths(h: Hypot, xs: seq<real>, ys: seq<real>): (s: seq<real>)
    requires |xs| == |ys|
    ensures |s| == (if |xs| == 0 then 1 else |xs|)
    ensures |xs| == 0 ==> s == [0.0]
    ensures |xs| > 0 ==> s == ArcLengths(h, Zip(xs, ys))
    ensures s[0] == 0.0 && NonDecreasing(s)
  {
    SampleArcLengths(h, xs, ys);
    [0.0] + CumSum(Chords(h, Zip(xs, ys)))
  }

  /** The closing and arc-length steps after sampling: the sampled velocities clamped, each
      array closed by repeating its first sample, and `S` recomputed from the closed samples. */
  function CloseSamples(h: Hypot, xs: seq<real>, ys: seq<real>, vs: seq<real>): (r: Samples)
    requires |xs| == |ys| == |vs|
    ensures |r.xs| == |r.ys| == |r.vs| == (if |xs| == 0 then 0 else |xs| + 1)
    ensures |r.s| == (if |xs| == 0 then 1 else |xs| + 1)
    ensures r.xs == Closed(xs) && r.ys == Closed(ys)
    ensures NonNegative(r.vs) && forall i :: 0 <= i < |vs| ==> r.vs[i] == Max0(vs[i])
    ensures |vs| > 0 ==> r.vs[|vs|] == r.vs[0]
    ensures |xs| == 0 ==> r.s == [0.0]
    ensures |xs| > 0 ==> r.s == ArcLengths(h, Zip(r.xs, r.ys))
    ensures r.s[0] == 0.0 && NonDecreasing(r.s)
  {
    var cx := Closed(xs);
    var cy := Closed(ys);
    Samples(cx, cy, ClosedVelocities(vs), SampleLengths(h, cx, cy))
  }

  /** `t / total`, entry by entry. */
  function Normalize(t: seq<real>, total: real): (tn: seq<real>)
    requires total > 0.0
    ensures |tn| == |t| && forall i :: 0 <= i < |t| ==> tn[i] == t[i] / total
  {
    seq(|t|, i requires 0 <= i < |t| => t[i] / total)
  }

  lemma DivOrder(a: real, b: real, total: real)
    requires total > 0.0 && a <= b
    ensures a / total <= b / total
  {
  }

  lemma DivUnit(a: real, total: real)
    requires total > 0.0 && 0.0 <= a <= total
    ensures 0.0 <= a / total <= 1.0
  {
  }

  /** Dividing a non-decreasing table from 0 to `total` by `total` gives one from 0 to 1. */
  lemma NormalizeUnit(t: seq<real>, total: real)
    requires |t| > 0 && total > 0.0 && t[0] == 0.0 && t[|t| - 1] == total
    requires NonDecreasing(t)
    ensures var tn := Normalize(t, total);
      && tn[0] == 0.0 && tn[|t| - 1] == 1.0 && NonDecreasing(tn)
      && forall i :: 0 <= i < |t| ==> 0.0 <= tn[i] <= 1.0
  {
    var tn := Normalize(t, total);
    forall i, j | 0 <= i <= j < |t| ensures tn[i] <= tn[j] {
      DivOrder(t[i], t[j], total);
    }
    forall i | 0 <= i < |t| ensures 0.0 <= tn[i] <= 1.0 {
      DivUnit(t[i], total);
    }
  }

  /** `t_norm_path`: the chord-length parameters of `pts` divided by their total, running from
      0 to 1. */
  function ControlParams(h: Hypot, pts: seq<Point>): (tn: seq<real>)
    requires |pts| > 0 && PathParams(h, pts)[|pts| - 1] > 0.0
    ensures |tn| == |pts| && tn[0] == 0.0 && tn[|pts| - 1] == 1.0
    ensures NonDecreasing(tn)
    ensures forall i :: 0 <= i < |tn| ==> 0.0 <= tn[i] <= 1.0
  {
    var t := PathParams(h, pts);
    NormalizeUnit(t, t[|t| - 1]);
    Normalize(t, t[|t| - 1])
  }

  /** `s_ctrl_path = t_norm_path * s_max`. */
  function Scaled(tn: seq<real>, sMax: real): (xs: seq<real>)
    ensures |xs| == |tn| && forall i :: 0 <= i < |tn| ==> xs[i] == tn[i] * sMax
  {
    seq(|tn|, i requires 0 <= i < |tn| => tn[i] * sMax)
  }

  /** `v_final_for_y_ctrl`: the profile read at the control parameters scaled by `s_max`,
      clamped at zero, and closed so that the last entry repeats the first. `None` when any
      reading raises. */
  function ControlVelocities(src: VelocitySource, tn: seq<real>, sMax: real): (r: Option<seq<real>>)
    ensures r.None? <==> exists i :: 0 <= i < |tn| && Eval(src, tn[i] * sMax).None?
    ensures r.Some? ==> |r.value| == |tn| && NonNegative(r.value) && Periodic(r.value)
    ensures r.Some? ==> forall i :: (0 <= i < |tn| - 1 || i == 0 < |tn|) ==>
      r.value[i] == Max0(Eval(src, tn[i] * sMax).value)
  {
    var xs := Scaled(tn, sMax);
    match EvalAll(src, xs)
    case None =>
      assert exists i :: 0 <= i < |xs| && Eval(src, xs[i]).None?;
      None
    case Some(vals) =>
      ClosePeriodicNonNegative(ClampAll(vals));
      Some(ClosePeriodic(ClampAll(vals)))
  }

  /** `y_ctrl`: the rows `(x, y, v)` the joint spline interpolates. */
  function Knots(pts: seq<Point>, v: seq<real>): (k: seq<Knot>)
    requires |pts| == |v|
    ensures |k| == |pts| && forall i :: 0 <= i < |pts| ==> k[i] == Knot(pts[i].x, pts[i].y, v[i])
  {
    seq(|pts|, i requires 0 <= i < |pts| => Knot(pts[i].x, pts[i].y, v[i]))
  }

  /** The joint spline fitted through the control rows and read at the `num` parameters
      `i / num`. `None` when reading the velocity profile at a control point raises. */
  function SampleRows(h: Hypot, fit: PathFit, pts: seq<Point>, num: nat, src: VelocitySource, sMax: real)
    : (r: Option<seq<Knot>>)
    requires |pts| > 0 && PathParams(h, pts)[|pts| - 1] > 0.0
    ensures r.None? <==> ControlVelocities(src, ControlParams(h, pts), sMax).None?
    ensures r.Some? ==> |r.value| == num
    ensures r.Some? ==>
      var curve := fit(ControlParams(h, pts), Knots(pts, ControlVelocities(src, ControlParams(h, pts), sMax).value));
      forall i :: 0 <= i < num ==> r.value[i] == curve((i as real) / (num as real))
  {
    var tn := ControlParams(h, pts);
    match ControlVelocities(src, tn, sMax)
    case None => None
    case Some(vctrl) => Some(ReadCurve(fit(tn, Knots(pts, vctrl)), num))
  }

  /** The output built from the sampled rows `(x, y, v)`: each column closed by repeating
      its first sample, velocities clamped at zero, and `S` the arc lengths of the closed
      sampled polygon. */
  function Shape(h: Hypot, rows: seq<Knot>): (r: Samples)
    ensures |r.xs| == |r.ys| == |r.vs| == (if |rows| == 0 then 0 else |rows| + 1)
    ensures |r.s| == |rows| + 1
    ensures forall i :: 0 <= i < |rows| ==>
      r.xs[i] == rows[i].x && r.ys[i] == rows[i].y && r.vs[i] == Max0(rows[i].v)
    ensures NonNegative(r.vs) && r.s[0] == 0.0 && NonDecreasing(r.s)
    ensures |rows| == 0 ==> r.s == [0.0]
    ensures |rows| > 0 ==>
      && r.xs[|rows|] == r.xs[0] && r.ys[|rows|] == r.ys[0] && r.vs[|rows|] == r.vs[0]
      && r.s == ArcLengths(h, Zip(r.xs, r.ys))
  {
    CloseSamples(h, XsOf(rows), YsOf(rows), VsOf(rows))
  }

  /** `cs_all(ts_sample)` at `ts_sample = np.linspace(0, 1, num, endpoint=False)`. */
  function ReadCurve(curve: real -> Knot, num: nat): (k: seq<Knot>)
    ensures |k| == num && forall i :: 0 <= i < num ==> k[i] == curve((i as real) / (num as real))
  {
    var ts := Linspace(num);
    seq(num, i requires 0 <= i < num => curve(ts[i]))
  }

  /** `sampled_points[:, 0]`, `[:, 1]` and `[:, 2]`: the columns of the sampled rows. */
  function XsOf(k: seq<Knot>): (col: seq<real>)
    ensures |col| == |k| && forall i :: 0 <= i < |k| ==> col[i] == k[i].x
  {
    seq(|k|, i requires 0 <= i < |k| => k[i].x)
  }

  function YsOf(k: seq<Knot>): (col: seq<real>)
    ensures |col| == |k| && forall i :: 0 <= i < |k| ==> col[i] == k[i].y
  {
    seq(|k|, i requires 0 <= i < |k| => k[i].y)
  }

  function VsOf(k: seq<Knot>): (col: seq<real>)
    ensures |col| == |k| && forall i :: 0 <= i < |k| ==> col[i] == k[i].v
  {
    seq(|k|, i requires 0 <= i < |k| => k[i].v)
  }

  /** The recomputed `S` is the arc-length table of the sampled polygon, or `[0]` when
      nothing was sampled. */
  lemma SampleArcLengths(h: Hypot, xs: seq<real>, ys: seq<real>)
    requires |xs| == |ys|
    ensures |xs| == 0 ==> [0.0] + CumSum(Chords(h, Zip(xs, ys))) == [0.0]
    ensures |xs| > 0 ==> [0.0] + CumSum(Chords(h, Zip(xs, ys))) == ArcLengths(h, Zip(xs, ys))
  {
    var p := Zip(xs, ys);
    if |p| > 0 {
      ArcLengthsOpenChords(h, p);
    } else {
      assert CumSum(Chords(h, p)) == [];
    }
  }

  /** A constant or zero profile can be read anywhere, so only a spline can make the general
      branch fail. */
  lemma ConstantNeverRaises(h: Hypot, fit: PathFit, pts: seq<Point>, num: nat, src: VelocitySource, sMax: real)
    requires |pts| > 0 && PathParams(h, pts)[|pts| - 1] > 0.0
    ensures !src.Spline? ==> SampleRows(h, fit, pts, num, src, sMax).Some?
  {
    if !src.Spline? {
      var tn := ControlParams(h, pts);
      assert forall i :: 0 <= i < |tn| ==> Eval(src, tn[i] * sMax).Some?;
    }
  }

  /** `spline_sample_closed(control_pts, num_points, cs_vel, s_max)`. `None` stands for an
      exception raised by `cs_vel` in the general branch, the only place it is not caught. */
  function SampleClosed(h: Hypot, fit: PathFit, ctrl: seq<Point>, num: nat, src: VelocitySource, sMax: real)
    : (r: Option<Samples>)
    ensures |ctrl| == 0 ==> r == Some(Samples([], [], [], []))
    ensures Degenerate(h, ctrl) ==> r == Some(Flat(num, ctrl[0], StartVelocity(src)))
    ensures r.None? ==> |ctrl| > 1 && !Degenerate(h, ctrl) && src.Spline?
    ensures r.Some? ==> |r.value.xs| == |r.value.ys| == |r.value.vs| && NonNegative(r.value.vs)
  {
    if |ctrl| == 0 then Some(Samples([], [], [], []))
    else if Degenerate(h, ctrl) then Some(Flat(num, ctrl[0], StartVelocity(src)))
    else SampleGeneral(h, fit, ctrl, num, src, sMax)
  }

  /** The general branch of `spline_sample_closed`, for a path of positive length. */
  function SampleGeneral(h: Hypot, fit: PathFit, ctrl: seq<Point>, num: nat, src: VelocitySource, sMax: real)
    : (r: Option<Samples>)
    requires |ctrl| > 1 && !Degenerate(h, ctrl)
    ensures r.None? ==> src.Spline?
    ensures r.Some? ==> |r.value.xs| == |r.value.ys| == |r.value.vs| && NonNegative(r.value.vs)
  {
    var pts := LoopPoints(ctrl);
    ConstantNeverRaises(h, fit, pts, num, src, sMax);
    match SampleRows(h, fit, pts, num, src, sMax)
    case None => None
    case Some(rows) => Some(Shape(h, rows))
  }

  /** The general branch fails exactly when reading the velocity profile at one of the
      control parameters raises. */
  lemma SampleClosedFails(h: Hypot, fit: PathFit, ctrl: seq<Point>, num: nat, src: VelocitySource, sMax: real)
    requires |ctrl| > 1 && !Degenerate(h, ctrl)
    ensures SampleClosed(h, fit, ctrl, num, src, sMax).None? <==>
      exists i :: 0 <= i < |LoopPoints(ctrl)| && Eval(src, ControlParams(h, LoopPoints(ctrl))[i] * sMax).None?
  {
    var pts := LoopPoints(ctrl);
    var rows := SampleRows(h, fit, pts, num, src, sMax);
    assert SampleClosed(h, fit, ctrl, num, src, sMax).None? <==> rows.None?;
    assert rows.None? <==> ControlVelocities(src, ControlParams(h, pts), sMax).None?;
  }

  /** A closed loop of `num > 0` samples: one extra entry repeating the first in each array,
      and arc lengths from 0 that never decrease. */
  predicate IsLoop(r: Samples, num: nat) {
    && |r.xs| == |r.ys| == |r.vs| == |r.s| == num + 1
    && r.xs[num] == r.xs[0] && r.ys[num] == r.ys[0] && r.vs[num] == r.vs[0]
    && r.s[0] == 0.0 && NonDecreasing(r.s)
  }

  /** Whatever the branch, a non-empty result of `num > 0` samples is a closed loop. */
  lemma SampleClosedLoop(h: Hypot, fit: PathFit, ctrl: seq<Point>, num: nat, src: VelocitySource, sMax: real)
    requires |ctrl| > 0 && num > 0 && SampleClosed(h, fit, ctrl, num, src, sMax).Some?
    ensures IsLoop(SampleClosed(h, fit, ctrl, num, src, sMax).value, num)
  {
    if Degenerate(h, ctrl) {
      FlatIsLoop(num, ctrl[0], StartVelocity(src));
    } else {
      var rows := SampleRows(h, fit, LoopPoints(ctrl), num, src, sMax).value;
      assert SampleClosed(h, fit, ctrl, num, src, sMax) == Some(Shape(h, rows));
      ShapeIsLoop(h, rows);
    }
  }

  lemma FlatIsLoop(num: nat, p: Point, v0: real)
    requires num > 0
    ensures IsLoop(Flat(num, p, v0), num)
  {
  }

  lemma ShapeIsLoop(h: Hypot, rows: seq<Knot>)
    requires |rows| > 0
    ensures IsLoop(Shape(h, rows), |rows|)
  {
  }

  /** In the general branch the returned `S` is the arc-length table of the returned points,
      and those points are the sampled rows of the joint spline. */
  lemma SampleClosedArcLengths(h: Hypot, fit: PathFit, ctrl: seq<Point>, num: nat, src: VelocitySource, sMax: real)
    requires |ctrl| > 1 && !Degenerate(h, ctrl) && num > 0
    requires SampleClosed(h, fit, ctrl, num, src, sMax).Some?
    ensures var r := SampleClosed(h, fit, ctrl, num, src, sMax).value;
      && |r.xs| == |r.ys| == num + 1
      && r.s == ArcLengths(h, Zip(r.xs, r.ys))
  {
    var rows := SampleRows(h, fit, LoopPoints(ctrl), num, src, sMax).value;
    assert SampleClosed(h, fit, ctrl, num, src, sMax).value == Shape(h, rows);
  }
}

=== FILE: velocity.dfy ===
/** The velocity control points and the velocity profile they define
    (graphic_editor/application.py): the drag rule and `update_positions` of
    `DraggableVelocityScatter`, the choice of profile in `handle_velocity_drag`, and
    `reset_velocity_profile`. */
module Velocity {
  import opened Outcome
  import opened RealSeq
  import opened Geometry
  import opened ArcLength

  /** The current velocity profile `cs_vel_current`: a periodic cubic spline through the
      control points, the constant lambda of a single control point, or the zero lambda.
      The spline's evaluation is foreign; `None` stands for an evaluation that raises. */
  datatype VelocitySource =
    | Spline(curve: real -> Option<real>)
    | Constant(value: real)
    | Zero

  /** The periodic `CubicSpline(s, v, bc_type="periodic")` fit, foreign to the model. */
  type VelocityFit = (seq<real>, seq<real>) -> (real -> Option<real>)

  /** Evaluating the profile at one arc length. */
  function Eval(src: VelocitySource, x: real): Option<real>
  {
    match src
    case Spline(curve) => curve(x)
    case Constant(c) => Some(c)
    case Zero => Some(0.0)
  }

  /** `v[-1] = v[0]` when there is more than one entry. */
  function ClosePeriodic(v: seq<real>): (r: seq<real>)
    ensures |r| == |v| && Periodic(r)
    ensures |v| > 0 ==> r[..|v| - 1] == v[..|v| - 1]
  {
    if |v| > 1 then v[|v| - 1 := v[0]] else v
  }

  /** Closing a profile changes nothing exactly when it is already periodic; in particular
      closing twice is closing once. */
  lemma ClosePeriodicFixes(v: seq<real>)
    ensures ClosePeriodic(v) == v <==> Periodic(v)
    ensures ClosePeriodic(ClosePeriodic(v)) == ClosePeriodic(v)
  {
    if |v| > 1 && ClosePeriodic(v) == v {
      assert ClosePeriodic(v)[|v| - 1] == v[0];
    }
  }

  /** Closing keeps every entry non-negative. */
  lemma ClosePeriodicNonNegative(v: seq<real>)
    requires NonNegative(v)
    ensures NonNegative(ClosePeriodic(v))
  {
  }

  /** `update_positions(s, v)`: the stored velocities, closed when the scatter is periodic. */
  function UpdatePositions(v: seq<real>, periodic: bool): (r: seq<real>)
    ensures |r| == |v|
    ensures periodic ==> Periodic(r)
    ensures !periodic ==> r == v
    ensures periodic && Periodic(v) ==> r == v
  {
    ClosePeriodicFixes(v);
    if periodic then ClosePeriodic(v) else v
  }

  /** Whether index `i` is the periodic mirror of the dragged index `k` among `n` entries. */
  predicate Mirror(periodic: bool, n: nat, k: nat, i: nat) {
    periodic && n > 1 && ((k == 0 && i == n - 1) || (k == n - 1 && i == 0))
  }

  /** `DraggableVelocityScatter.mouseMoveEvent`: the dragged velocity becomes `max(0, y)`, and
      in a periodic scatter dragging either end moves the other end with it. `None` is the
      `IndexError` of an index past the end. */
  function Drag(v: seq<real>, k: nat, y: real, periodic: bool): (r: Option<seq<real>>)
    ensures r.Some? <==> k < |v|
    ensures r.Some? ==> |r.value| == |v| && r.value[k] == Max0(y)
    ensures r.Some? ==> forall i :: 0 <= i < |v| && Mirror(periodic, |v|, k, i) ==> r.value[i] == Max0(y)
    ensures r.Some? ==> forall i :: 0 <= i < |v| && i != k && !Mirror(periodic, |v|, k, i) ==> r.value[i] == v[i]
  {
    if k >= |v| then None
    else
      var w := v[k := Max0(y)];
      if periodic && |w| > 1 then
        if k == 0 then Some(w[|w| - 1 := w[0]])
        else if k == |w| - 1 then Some(w[0 := w[|w| - 1]])
        else Some(w)
      else Some(w)
  }

  /** A drag keeps the velocities non-negative, and keeps a periodic profile periodic. */
  lemma DragKeepsInvariants(v: seq<real>, k: nat, y: real, periodic: bool)
    requires k < |v| && NonNegative(v)
    ensures NonNegative(Drag(v, k, y, periodic).value)
    ensures periodic && Periodic(v) ==> Periodic(Drag(v, k, y, periodic).value)
  {
    var r := Drag(v, k, y, periodic).value;
    forall i | 0 <= i < |v| ensures 0.0 <= r[i] {
      if i == k || Mirror(periodic, |v|, k, i) {
        assert r[i] == Max0(y);
      } else {
        assert r[i] == v[i];
      }
    }
  }

  /** Which profile `handle_velocity_drag`, `update_spline` and `reset_velocity_profile` install
      for control points at arc lengths `s` with velocities `v`: the periodic spline through the
      closed velocities for two or more points, the single velocity everywhere for one point,
      zero everywhere for none. */
  function SourceFor(fit: VelocityFit, s: seq<real>, v: seq<real>): (src: VelocitySource)
    requires |s| == |v|
    ensures |s| > 1 ==> src == Spline(fit(s, ClosePeriodic(v)))
    ensures |s| == 1 ==> forall x :: Eval(src, x) == Some(v[0])
    ensures |s| == 0 ==> forall x :: Eval(src, x) == Some(0.0)
  {
    if |s| > 1 then Spline(fit(s, ClosePeriodic(v)))
    else if |s| == 1 then Constant(v[0])
    else Zero
  }

  /** A drag of velocity point `k` to height `y` in the periodic velocity scatter, followed by
      the refit of `handle_velocity_drag`. `None` is the drag of an index past the end. A drag
      keeps a non-negative profile non-negative and a periodic one periodic, and the fitted
      spline then passes through exactly the velocities the scatter shows. */
  function DragProfile(fit: VelocityFit, prev: Profile, k: nat, y: real): (r: Option<Profile>)
    requires |prev.s| == |prev.v|
    ensures r.None? <==> k >= |prev.v|
    ensures r.Some? ==> r.value.s == prev.s && |r.value.v| == |prev.v| && r.value.v[k] == Max0(y)
    ensures r.Some? && NonNegative(prev.v) ==> NonNegative(r.value.v)
    ensures r.Some? && Periodic(prev.v) ==> Periodic(r.value.v)
    ensures r.Some? && |prev.s| > 1 && Periodic(prev.v) ==> r.value.source == Spline(fit(prev.s, r.value.v))
    ensures r.Some? && |prev.s| == 1 ==> forall x :: Eval(r.value.source, x) == Some(Max0(y))
  {
    match Drag(prev.v, k, y, true)
    case None => None
    case Some(v) =>
      DragPeriodic(prev.v, k, y);
      ClosePeriodicFixes(v);
      Some(Profile(prev.s, v, SourceFor(fit, prev.s, v)))
  }

  /** A drag in a periodic scatter keeps the ends equal, and never makes an entry negative. */
  lemma DragPeriodic(v: seq<real>, k: nat, y: real)
    requires k < |v|
    ensures Periodic(v) ==> Periodic(Drag(v, k, y, true).value)
    ensures NonNegative(v) ==> NonNegative(Drag(v, k, y, true).value)
  {
    var r := Drag(v, k, y, true).value;
    if NonNegative(v) {
      DragKeepsInvariants(v, k, y, true);
    }
    if Periodic(v) && |v| > 1 {
      if k == 0 || k == |v| - 1 {
        assert Mirror(true, |v|, k, |v| - 1 - k);
      } else {
        assert r[0] == v[0] && r[|v| - 1] == v[|v| - 1];
      }
    }
  }

  /** The distances `np.hypot(static[:, 0] - x, static[:, 1] - y)` from `p` to each waypoint. */
  function WaypointDistances(h: Hypot, waypoints: seq<Point>, p: Point): (d: seq<real>)
    ensures |d| == |waypoints|
    ensures forall j :: 0 <= j < |d| ==> d[j] == h(waypoints[j].x - p.x, waypoints[j].y - p.y)
  {
    seq(|waypoints|, j requires 0 <= j < |waypoints| => h(waypoints[j].x - p.x, waypoints[j].y - p.y))
  }

  /** `int(np.argmin(dists))`: the first waypoint at least as close to `p` as every other. */
  function NearestWaypoint(h: Hypot, waypoints: seq<Point>, p: Point): (k: nat)
    requires |waypoints| > 0
    ensures k < |waypoints|
    ensures forall j :: 0 <= j < |waypoints| ==>
      h(waypoints[k].x - p.x, waypoints[k].y - p.y) <= h(waypoints[j].x - p.x, waypoints[j].y - p.y)
    ensures forall j :: 0 <= j < k ==>
      h(waypoints[k].x - p.x, waypoints[k].y - p.y) < h(waypoints[j].x - p.x, waypoints[j].y - p.y)
  {
    ArgMin(WaypointDistances(h, waypoints, p))
  }

  /** The velocities `reset_velocity_profile` assigns: each control point takes the original
      velocity of its nearest original waypoint, clamped at zero, and the last entry is then
      set to the first. `None` is the exception raised when there is no waypoint to measure
      against, which happens only when there are control points to look up. */
  function ResetVelocities(h: Hypot, waypoints: seq<Point>, vOrig: seq<real>, ctrl: seq<Point>)
    : (r: Option<seq<real>>)
    requires |vOrig| == |waypoints|
    ensures r.None? <==> |waypoints| == 0 && |ctrl| > 0
    ensures r.Some? ==> |r.value| == |ctrl| && NonNegative(r.value) && Periodic(r.value)
    ensures r.Some? ==> forall i :: 0 <= i < |ctrl| && (i < |ctrl| - 1 || |ctrl| == 1) ==>
      r.value[i] == Max0(vOrig[NearestWaypoint(h, waypoints, ctrl[i])])
  {
    if |ctrl| > 0 && |waypoints| == 0 then None
    else
      var raw := seq(|ctrl|, i requires 0 <= i < |ctrl| => vOrig[NearestWaypoint(h, waypoints, ctrl[i])]);
      ClosePeriodicNonNegative(ClampAll(raw));
      Some(ClosePeriodic(ClampAll(raw)))
  }

  /** The velocity scatter and the installed profile: arc lengths `s`, velocities `v` and the
      profile `source` that `spline_sample_closed` evaluates. */
  datatype Profile = Profile(s: seq<real>, v: seq<real>, source: VelocitySource)

  /** `reset_velocity_profile`: new velocities at the control points' arc lengths and the profile
      fitted through them. */
  function ResetProfile(h: Hypot, fit: VelocityFit, waypoints: seq<Point>, vOrig: seq<real>, ctrl: seq<Point>)
    : (r: Option<Profile>)
    requires |vOrig| == |waypoints|
    ensures r.None? <==> |waypoints| == 0 && |ctrl| > 0
    ensures r.Some? ==> r.value.s == ArcLengths(h, ctrl) && |r.value.v| == |ctrl|
    ensures r.Some? ==> NonNegative(r.value.v) && Periodic(r.value.v)
    ensures r.Some? && |ctrl| == 1 ==> forall x :: Eval(r.value.source, x) == Some(r.value.v[0])
    ensures r.Some? && |ctrl| > 1 ==> r.value.source == Spline(fit(r.value.s, r.value.v))
  {
    match ResetVelocities(h, waypoints, vOrig, ctrl)
    case None => None
    case Some(v) =>
      var s := ArcLengths(h, ctrl);
      ClosePeriodicFixes(v);
      Some(Profile(s, UpdatePositions(v, true), SourceFor(fit, s, v)))
  }
}
